=== FILE: README.md ===
# Cookie sessions: a Dafny model

This project models the session layer of a college-site API built on Express.
A client holds a random plaintext id, signed with `cookie-signature`, in a
cookie named `session`. The server keys the session's state by
`hash(plain + secret)` in one of two stores: an in-memory `Map`, or Redis (one
hash per session plus a per-owner sorted-set index). A middleware resolves the
cookie to stored state on every request and exposes it as `req.session`. That
object is a `Proxy` which routes reads, writes and deletes between the
session's own fields and its persisted pairs. Two route guards read it.

The model follows the code as written, including its defects. Each defect is
stated as a lemma about the model, not patched.

Modules, one per concern:

- `Wrappers`: `Option` and `Result`.
- `Json`: scalar values with `JSON.stringify`, a canonical `JSON.parse`, and `String(v)`.
- `Js`: the JavaScript built-ins the code uses implicitly: `String.prototype.trim`, assignment of a property on a plain object, and the conversion to a number that `<` applies to a stored deadline.
- `Cookie`: `Cookie.parse`. `CookieExamples` holds concrete headers.
- `Crypto`: `sign`, `unsign` and the storage-key hash, over abstract primitives.
- `StoreTypes`: what the stores return and how they fail.
- `MemoryStore`: the in-memory store.
- `Redis`: the Redis commands the store sends, and pipelines.
- `RedisStore`: the Redis-backed store.
- `Store`: dispatch to either backend, and how the backends disagree.
- `Sessions`: the `Session` class.
- `Proxy`: the `get`, `set` and `deleteProperty` traps.
- `Middleware`: the cookie-to-session middleware.
- `Guards`: `loginRequired`, `adminPrivilegeRequired` and `validateData`.

Parameters stand for what the model cannot see:

- `now` is `Date.now()` in milliseconds. One value is used per call.
- `decode` is `decodeURIComponent`. It returns `None` where it throws.
- `Primitives(mac, hash)` is the HMAC digest and the SHA-1 hash.
- `plain` is the output of `sessionGenerator()`.
- `failing` is the set of Redis pipeline sub-commands that report an error.

## Model

| member | source | states |
|---|---|---|
| Cookie.Parse | sessions/Cookie.js:2-5 | A missing or empty header yields the empty object. |
| Cookie.Split | sessions/Cookie.js:8-9 | A split gives at least one piece, and no piece contains the separator. |
| Cookie.JoinSplit | sessions/Cookie.js:8-9 | Joining the pieces with the separator gives back the text, so splitting loses nothing. |
| Js.Trim | sessions/Cookie.js:11 | The trimmed text neither starts nor ends with JavaScript whitespace. |
| Js.TrimPadded | sessions/Cookie.js:11 | The text is the trimmed text with only whitespace before and after it, so `trim` removes exactly the surrounding whitespace. |
| Js.Assign | sessions/MemoryStore.js:66 | Assigning a scalar property creates or overwrites it. The exception is `__proto__`, which creates nothing unless the object already owns that name. |
| Js.StringToNumber | sessions/MemoryStore.js:24 | A deadline text compared with `<` is read as a number: a blank text is 0, and a run of digits is its decimal value. |
| Js.NumberTextToNumber | sessions/MemoryStore.js:24 | The text of an integer, compared with `<`, reads back as that integer. |
| Js.NumberTextCompares | sessions/MemoryStore.js:24 | The text of an integer is truthy and is below a number exactly when the integer is. |
| Cookie.ParseSegment | sessions/Cookie.js:9-11 | A segment parses only if it contains '='. Without one, and with a decodable name, reading the missing value throws. |
| Cookie.SegmentPieces | sessions/Cookie.js:9-11 | `n=v` parses iff both trimmed pieces decode, and then gives the decoded name and value. |
| Cookie.ValueStopsAtEquals | sessions/Cookie.js:9-11 | Text after a second '=' in a segment is ignored. |
| Cookie.Collect | sessions/Cookie.js:10-14 | Every stored value is the value of an entry of that name, and no key is `__proto__`. |
| Cookie.SingleSegment | sessions/Cookie.js:7-14 | A header of one segment is that segment's pair, unless the name is `__proto__`. |
| Cookie.NamedCookie | sessions/Cookie.js:7-14 | `name=value` as a whole header gives the object with the trimmed name mapped to the trimmed value. |
| Cookie.ParseSegments | sessions/Cookie.js:9-11 | Segments parse exactly when each one does. There is one entry per segment, and it is that segment's decoded name and value. |
| Cookie.CollectKeys | sessions/Cookie.js:10-14 | The reduced object's keys are exactly the names read, except `__proto__`, whose assignment creates no key. |
| Cookie.CollectLastWins | sessions/Cookie.js:10-14 | A name other than `__proto__` takes the value of the last entry carrying it. |
| Cookie.ParseLastWins | sessions/Cookie.js:7-14 | For a whole header, a repeated name other than `__proto__` maps to the value of its last segment. |
| Cookie.ParseKeys | sessions/Cookie.js:7-14 | The parsed object has one key per distinct segment name other than `__proto__`, and no other key. |
| Cookie.SegmentWithoutEqualsThrows | sessions/Cookie.js:9-11 | A segment without '=' makes the parse throw (reading `value[1]` of a one-piece split). |
| Cookie.OnlyMissingValue | sessions/Cookie.js:11 | When decoding never fails, a failing parse can only be the missing-value error. |
| CookieExamples.TwoCookies | sessions/Cookie.js:7-14 | `n1=v1; n2=v2` with plain, distinct names parses to `{n1: v1, n2: v2}`. |
| CookieExamples.PlainSegment | sessions/Cookie.js:9-11 | A segment `n=v` of plain pieces parses to `(n, v)`. |
| CookieExamples.SpacedSegment | sessions/Cookie.js:9-11 | The space after a ';' is trimmed from the name. |
| CookieExamples.ParseTwoSegments | sessions/Cookie.js:8-11 | Two segments that each parse give both entries, in order. |
| CookieExamples.TwoSegmentHeader | sessions/Cookie.js:7-14 | A header of two segments free of ';', each of which parses, collects both entries. |
| CookieExamples.CollectTwo | sessions/Cookie.js:10-14 | Two entries whose names are not `__proto__` collect to both pairs, the second winning on an equal name. |
| CookieExamples.BareSecondSegment | sessions/Cookie.js:7-14 | A second segment without '=' makes the whole parse throw. |
| CookieExamples.SegmentWithEquals | sessions/Cookie.js:9-11 | The segment `n=v=rest` is the trimmed `n` and `v`. |
| CookieExamples.ExampleTwoCookies | tests/helpers/UserHelper.js:41 | `foo=bar; session=abc` parses to `{foo: "bar", session: "abc"}`. |
| CookieExamples.ExampleBareAttribute | tests/helpers/UserHelper.js:41 | `session=abc; HttpOnly` throws: the bare attribute has no '='. |
| CookieExamples.ValueWithEquals | sessions/Cookie.js:7-14 | `n=v=rest` parses to the trimmed `n` mapped to the trimmed `v`: the value stops at the second '='. |
| Crypto.Sign | sessions/Session.js:54 | The token is the value, a '.', and `mac(value, secret)`. With a digest free of '.', the value ends at the token's last '.'. |
| Crypto.Unsign | sessions/index.js:55 | Any token `unsign` accepts is the signature of the value it returns, so other tokens are rejected. |
| Crypto.UnsignSign | sessions/Session.js:54 | With a digest free of '.', `unsign(sign(v, s), s)` returns `v`. |
| Json.ParseIffStringify | sessions/RedisStore.js:46 | Reading a field with `JSON.parse` gives `v` exactly when the field is `JSON.stringify(v)`. |
| MemoryStore.AddSession | sessions/MemoryStore.js:13-15 | The stored object is `{userId: u}` merged with the pairs, and a `userId` pair overrides `u`. A `__proto__` pair creates no field. Other entries are untouched. |
| MemoryStore.GetSession | sessions/MemoryStore.js:17-37 | A session is returned iff the key is present and not expired. The returned pairs lack `userId` and `expirationTime`, and those two fields are also deleted from the stored object. Nothing changes on a miss. |
| MemoryStore.ExpiredCases | sessions/MemoryStore.js:24 | A number deadline expires once below the clock, except the falsy 0. `null` never expires. The text of a number expires as that number, and the text "0" is truthy. |
| MemoryStore.NonNumericDeadlineStays | sessions/MemoryStore.js:24 | A deadline text that is not a number is NaN, and the session never expires. |
| MemoryStore.AddThenGet | sessions/MemoryStore.js:13-37 | What `addSession` stored is read back: the owner, and the pairs without `userId` or `__proto__`. |
| MemoryStore.SetExpirationTime | sessions/MemoryStore.js:39-44 | The deadline becomes `now + t * 1000`, with no sign check. An absent key throws. |
| MemoryStore.AddTimedThenGet | sessions/MemoryStore.js:13-44 | After `addSession` and then `setExpirationTime(t)`, a read at any time up to `now + t * 1000` returns the owner and the pairs, for any pairs. The read leaves out `userId`, `__proto__` and an `expirationTime` pair, which the deadline overwrote. |
| MemoryStore.ExpiryWindow | sessions/MemoryStore.js:24-26 | After `setExpirationTime(t)`, the session is served at `later` iff `later <= now + t * 1000` or the deadline is the falsy 0. |
| MemoryStore.NegativeTtlExpiresAtOnce | sessions/MemoryStore.js:41 | A negative time makes the session unreadable at once. |
| MemoryStore.GetExpirationTime | sessions/MemoryStore.js:46-48 | Returns the stored absolute deadline, which is `undefined` when unset. An absent key throws. |
| MemoryStore.DeleteSession | sessions/MemoryStore.js:50-52 | Exactly key `k` is removed, and every other entry is unchanged. |
| MemoryStore.DeleteSessionsByUserId | sessions/MemoryStore.js:54-62 | Afterwards no entry has `userId === u`, and every other entry is unchanged. |
| MemoryStore.ForcedLogoutMissesReadSession | sessions/MemoryStore.js:28-30 | A session read once no longer names its owner, so `deleteSessionsByUserId` keeps it and it is still served. |
| MemoryStore.SetPair | sessions/MemoryStore.js:64-69 | Only the named field of that one record changes. A `__proto__` the record does not own changes nothing. An absent key throws. |
| MemoryStore.SetPairThenGet | sessions/MemoryStore.js:64-69 | Apart from the two stripped fields, a pair written with `setPair` is read back by `getSession` iff its name is not `__proto__` or the record already owned that name. |
| MemoryStore.DeletePairThenGet | sessions/MemoryStore.js:71-76 | After `deletePair`, `getSession` reads the same pairs minus the deleted one. |
| MemoryStore.DeletePair | sessions/MemoryStore.js:71-76 | Only the named field of that one record is removed. An absent key throws. |
| MemoryStore.Sweep | sessions/MemoryStore.js:4-10 | Exactly the expired entries are removed. |
| MemoryStore.SweepInvisibleToFetch | sessions/MemoryStore.js:4-10 | A sweep never changes what `getSession` reports, because the read already hides every entry the sweep removes. |
| MemoryStore.SecondReadLosesOwner | sessions/MemoryStore.js:28-30 | After one read, a second read of the same session still finds it, but reports no owner. |
| MemoryStore.ForcedLogoutRemovesOwned | sessions/MemoryStore.js:54-61 | A session whose stored object names the owner is gone after `deleteSessionsByUserId` of that owner. |
| Redis.Purge | sessions/RedisStore.js:37 | Every command sees only the keys whose deadline has not passed. |
| Redis.ZRemRangeByScore | sessions/RedisStore.js:69 | Keeps exactly the members scored above the bound. |
| Redis.Expire | sessions/RedisStore.js:65-66 | A missing key is unaffected. A non-positive time deletes the key. Otherwise the deadline is `now + t * 1000`. |
| Redis.FirstFailure | sessions/RedisStore.js:27-33 | Returns the lowest failed sub-command index, or none if none failed. |
| Redis.RunPipelineFour | sessions/RedisStore.js:64-71 | A pipeline applies its commands in order, and a failed one has no effect. |
| RedisStore.AddSession | sessions/RedisStore.js:6-34 | Rejects iff a sub-command failed. The hash gains `user_id` as the client sends it, plus the `JSON.stringify`-ed pairs, and the owner's index scores `k` at `now`. |
| RedisStore.ArgRoundTripIff | sessions/RedisStore.js:107-109 | A value sent as a client argument and read with `JSON.parse` comes back iff it is neither a string nor `null`. `null` goes out as the empty text. |
| RedisStore.AddThenGet | sessions/RedisStore.js:6-57 | A fresh session whose owner is neither a string nor `null` reads back whole: the owner, and the pairs without `user_id`. A `__proto__` pair is written but not read back. |
| RedisStore.OwnerNotReadBack | sessions/RedisStore.js:10 | A string owner id, sent raw, or a `null` one, sent as the empty text, is never read back as itself. A `null` owner makes `getSession` throw. |
| RedisStore.PipelineNotAtomic | sessions/RedisStore.js:21-26 | If the `HSET` fails and the `ZADD` does not, the index lists a session that has no fields. |
| RedisStore.GetSession | sessions/RedisStore.js:36-57 | Returns null for no fields, and throws iff a field is not JSON. Otherwise every field is parsed, `user_id` becomes the owner, and the rest except `__proto__` become the pairs. |
| RedisStore.Decode | sessions/RedisStore.js:43-47 | Every field is parsed into a pair of the same name, except a `__proto__` field, which creates none. |
| RedisStore.SetExpirationTime | sessions/RedisStore.js:59-79 | A negative time leaves the database unchanged and resolves. Otherwise it rejects iff one of the four sub-commands failed. |
| RedisStore.SetExpirationTtl | sessions/RedisStore.js:64-66 | With `t > 0`, `TTL` reports `t` for the session and for an existing owner index. |
| RedisStore.SetExpirationIndex | sessions/RedisStore.js:67-69 | With `t > 0`, the index lists `k`. It drops exactly the other members scored at or below `now - t * 1000`, and the rest keep their scores. |
| RedisStore.ExpirationKeepsRead | sessions/RedisStore.js:59-79 | A positive expiration time on a live session leaves what `getSession` reads at that instant unchanged. |
| RedisStore.ZeroTtlDestroys | sessions/RedisStore.js:65 | An expiration time of 0 deletes the session at once. |
| RedisStore.GetExpirationTime | sessions/RedisStore.js:81-83 | Returns -2 iff the key is gone, -1 iff it has no deadline, and otherwise a non-negative number of seconds. |
| RedisStore.DeleteSessionsByUserId | sessions/RedisStore.js:96-105 | With an empty index nothing changes. Otherwise every indexed session and the index are deleted, and other live keys are untouched. |
| RedisStore.DeleteSession | sessions/RedisStore.js:85-94 | With a missing or empty `user_id` nothing changes. Otherwise it does what `deleteSessionsByUserId` does for that owner. |
| RedisStore.DeleteSessionRemovesOwnerSessions | sessions/RedisStore.js:85-94 | Every session in the index of the owner named by `user_id` is gone, and so is that index. |
| RedisStore.DeleteSessionSparesUnindexed | sessions/RedisStore.js:85-94 | A session missing from its owner's index survives `deleteSession`. |
| RedisStore.SetPair | sessions/RedisStore.js:107-109 | The field holds the value as the client sends it: `String(v)`, or the empty text for `null`. Deadlines are untouched. |
| RedisStore.SetPairRoundTripIff | sessions/RedisStore.js:107-109 | A value written with `setPair` comes back from `getSession` iff it is neither a string nor `null` and its name is not `__proto__`. |
| RedisStore.SetPairResurrects | sessions/RedisStore.js:107-109 | `setPair` of a value that is neither a string nor `null`, on a gone session, recreates a one-field hash with no owner and no deadline. |
| RedisStore.DeletePair | sessions/RedisStore.js:111-113 | The field is gone and the other fields stay. |
| Store.GetSession | sessions/index.js:61 | A returned session carries the key it was asked for. A miss leaves the backend unchanged. |
| Store.DeleteSessionScope | sessions/MemoryStore.js:50-52 | Memory deletes one session and keeps the owner's other session. Redis deletes every indexed session of the owner. |
| Store.ExpirationReadsDiffer | sessions/MemoryStore.js:46-48 | After `setExpirationTime(t)`, memory reports the deadline `now + t * 1000` and Redis reports `t` seconds. |
| Store.NegativeTtlDiffers | sessions/RedisStore.js:60-62 | A negative time ends a memory session at once and leaves Redis unchanged. |
| Sessions.Empty | sessions/Session.js:29 | A session built without data has no id and no pairs, so `exists()` is false. |
| Sessions.FromData | sessions/Session.js:21-26 | A session built from data takes its id, owner and pairs, so `exists()` is true. |
| Sessions.StoreKey | sessions/Session.js:33 | A session id is used as the store key as is. A null id has no key in memory and is sent to Redis as the empty text. |
| Sessions.Init | sessions/Session.js:44-61 | With a truthy id nothing changes. Otherwise the id is `hash(plain + secret)`, the owner is `u`, the pairs are `p` or `{}`, and one cookie `sign(plain)` is queued. |
| Sessions.InitOnce | sessions/Session.js:45-47 | A second `init`, with any arguments, changes nothing: no cookie and no store call. |
| Sessions.InitCookieNamesKey | sessions/Session.js:50-57 | The queued cookie verifies to the plaintext id, and the session's key is the hash of that id. |
| Sessions.InitThenRead | sessions/Session.js:59-60 | With the memory store, what `init` stored is read back under the new key until `now + expirationTime * 1000`, for any pairs. A `__proto__` pair is not stored, and an `expirationTime` pair gives way to the deadline. |
| Sessions.InitSetsDeadline | sessions/Session.js:60 | With the memory store, `init` succeeds and leaves the new session's deadline at `now + expirationTime * 1000`. |
| Sessions.InitSetsTtl | sessions/Session.js:60 | With Redis and a positive expiration time, `init` succeeds and leaves the new session's `TTL` at that time in seconds. |
| Sessions.InitThenReadRedis | sessions/Session.js:59-60 | With Redis, a fresh key, a positive expiration time and an owner that is neither a string nor `null`, what `init` stored is read back at once, except a `__proto__` pair. |
| Sessions.DefaultExpirationEndsMemorySession | sessions/index.js:68 | With the default expiration time -1, a memory session is unreadable right after `init`. |
| Sessions.Delete | sessions/Session.js:63-67 | Every queued cookie is dropped and the session object is unchanged. The store's `deleteSession` runs on the session's key, and a null id makes no memory-store change. |
| Sessions.DeleteKeepsExists | sessions/Session.js:63-67 | `delete()` leaves the session object, so `exists()` stays true for the rest of the request. |
| Sessions.DeleteEndsMemorySession | sessions/Session.js:63-67 | With the memory store, a later read of the deleted session's key finds nothing. |
| Sessions.DeleteEndsRedisSession | sessions/Session.js:63-67 | With Redis, when the session's hash names an owner whose index lists it, the session reads as gone afterwards. |
| Sessions.SetPair | sessions/Session.js:32-34 | The write goes to the store under the session's id. A null id throws in memory and is sent to Redis as the empty text. |
| Sessions.DeletePair | sessions/Session.js:36-38 | The delete goes to the store under the session's id, and a null id is handled as in `SetPair`. |
| Proxy.Get | sessions/index.js:10-16 | An own pair wins over the field of the same name. Names that are neither fields nor methods read `undefined`. With null pairs, `pairs` reads `null`. Every read throws iff the pairs own `hasOwnProperty`. |
| Proxy.Set | sessions/index.js:18-34 | An own field takes the assigned value locally, with no store call. Any other name with non-null pairs is assigned on the pairs, where a new `__proto__` creates nothing. The store ends as `setPair` leaves it, and the trap rejects iff `setPair` does, with its error. With null pairs nothing changes. |
| Proxy.SetThenGet | sessions/index.js:10-34 | A pair written through the proxy is read back through it, with two exceptions. A `__proto__` the pairs did not own reads as before. Once the pairs own `hasOwnProperty`, the read throws. |
| Proxy.SetOwnThenGet | sessions/index.js:10-23 | `sessionId`, `userId` or `pairs` written through the proxy reads back as the value written, unless a pair of the same name hides it. A `hasOwnProperty` pair makes the read throw, except for `pairs` set to null. |
| Proxy.SetOwnCheckBreaksProxy | sessions/index.js:11-37 | Assigning `hasOwnProperty` through the proxy stores a pair locally and in the store. From then on, every proxied read throws and every proxied delete rejects. |
| Proxy.SetReachesMemoryStore | sessions/index.js:25-29 | With the memory store, a pair set through the proxy reaches the stored object, where a new `__proto__` changes nothing. |
| Proxy.DeleteProperty | sessions/index.js:36-45 | Only a pair the session owns is removed. The store ends as `deletePair` leaves it, and the trap rejects iff `deletePair` does. Null pairs and a `hasOwnProperty` pair reject, with nothing changed. |
| Proxy.DeleteThenGet | sessions/index.js:36-45 | After a delete, a read falls through to the session's own field. With a `hasOwnProperty` pair, the read still throws. |
| Proxy.DeleteReachesMemoryStore | sessions/index.js:36-45 | With the memory store, a pair deleted through the proxy is removed from the stored object, and nothing else in it changes. With a `hasOwnProperty` pair the trap rejects and the store is untouched. |
| Middleware.Resolve | sessions/index.js:48-62 | A key is resolved iff there is a non-empty `session` cookie that verifies to a non-empty `plain`. The key is `hash(plain + secret)`, and the cookie is the signature of `plain`. |
| Middleware.GetSessionDataIfExists | sessions/index.js:48-62 | With no resolvable cookie, it returns null and leaves the store unchanged. In memory, a resolved key finds data iff it is stored and not expired. In Redis, it finds data iff the hash is non-empty, and throws iff a field is not JSON. |
| Middleware.HandleCookies | sessions/index.js:82-96 | The session exists iff a cookie is re-issued, and then its id is the resolved key. The memory store never rejects and keeps its keys. On a memory hit, the session's pairs are the stored object, which carries the renewed deadline `now + t * 1000`. |
| Middleware.RedisHitRenews | sessions/index.js:84-94 | With Redis and `t > 0`, a hit's session is the data read, the data still reads the same, and `TTL` reports `t` again. |
| Middleware.MemoryHit | sessions/index.js:84-94 | With the memory store, a cookie naming a live session yields that session: its key, and the owner `getSession` read from the stored object. |
| Middleware.MemoryMiss | sessions/index.js:80-96 | With the memory store, a cookie naming an unknown key yields an empty session and leaves the store alone. |
| Middleware.Handle | sessions/index.js:80-82 | The request rejects with a cookie error iff the header does not parse. Without a header, the session is empty and the store is untouched. |
| Middleware.LoginThenRequest | sessions/index.js:80-96 | After `init` with the memory store, a request whose header carries the issued cookie finds the session with its owner under the key `init` used. |
| Middleware.InitCookieResolves | sessions/index.js:55-61 | A cookie issued by `init` resolves to exactly the key `init` created. |
| Middleware.ReissuedCookieResolves | sessions/index.js:84-88 | The re-issued cookie resolves to `hash(k + secret)`, which is the same session only if that hash is `k`. |
| Middleware.NoCookieNoSession | sessions/index.js:82-96 | Without a `session` cookie, the session is empty, no cookie is issued and the store is untouched. |
| Middleware.FoundSessionReissuesKey | sessions/index.js:84-93 | On a hit, the one re-issued cookie signs the storage key itself. |
| Middleware.InitKeys | sessions/Session.js:59 | After `init` on an empty memory store, the store holds exactly the one key the session was added under. |
| Middleware.SessionLostAfterOneRequest | sessions/index.js:84-88 | For any digest free of '.' and any hash that does not send the storage key back to itself: after a login, the next request finds the session, and the request after that gets an empty session. |
| Middleware.UnitMismatch | server.js:38 | The configured value gives a cookie four days in milliseconds. A memory session is still served a thousand times as long. |
| Guards.LoginRequired | routes/middlewares.js:5-11 | Calls `next` iff `exists` resolves to the method and the proxied `sessionId` is not null. Otherwise it raises 401, or faults when `exists` is not a function or its lookup throws. |
| Guards.LoginRequiredIffExists | routes/middlewares.js:5-11 | Without an `exists` or `sessionId` pair, the guard calls `next` iff `exists()` holds and no `hasOwnProperty` pair is present. A `hasOwnProperty` pair makes it fault, and otherwise it raises 401. |
| Guards.PairsDecideLogin | routes/middlewares.js:6 | A null `sessionId` pair locks a session out. An `exists` or `hasOwnProperty` pair makes the guard throw. |
| Guards.AdminPrivilegeRequired | routes/middlewares.js:13-19 | Calls `next` iff `isAdmin`, read through the proxy, is truthy. A read that throws faults, and otherwise it raises 403. |
| Guards.AdminFromPairs | routes/middlewares.js:14 | Admin status comes only from a truthy `isAdmin` pair. A `hasOwnProperty` pair makes the guard fault. |
| Guards.ValidateData | routes/middlewares.js:21-29 | Calls `next` iff there are no errors. Otherwise it responds 400 with the list. |
| Guards.AnonymousRejected | routes/middlewares.js:5-19 | The empty session passes neither the login guard nor the admin guard. |

## Left out

- Timers and the clock: the `setInterval` sweep is the explicit step `MemoryStore.Sweep`. `Date.now()` is the parameter `now`, and a call that reads it twice is modelled with one value.
- Asynchrony: every `await` is a sequential step. Concurrent requests and interleavings are not modelled.
- The Proxy `set` trap's un-awaited promise is modelled as a synchronous store call. Its rejection is reported as a status that nobody observes.
- Redis I/O: connection errors and `WRONGTYPE` errors are not modelled. Hashes and sorted sets are kept in separate maps. Only the pipelines of `addSession` and `setExpirationTime` can fail, through `failing`. `Store` passes no failures.
- Redis argument encoding: the client sends `null` and a missing value as the empty text, and any other value as `String(v)`. Buffers and numbers in other forms are not modelled.
- Redis `TTL` is the rounded remaining seconds, and key order in `ZRANGE` is not modelled (callers use it as a set).
- Json.Parse: accepts only the canonical texts that `JSON.stringify` writes for null, booleans, integers and strings. Real `JSON.parse` also accepts whitespace, other escapes, fractions, exponents, objects and arrays. Pair values are limited to those scalars.
- Crypto internals: HMAC-SHA256 (RFC 2104), SHA-1 (FIPS 180-4), base64 and `uid-safe` are not modelled. `Primitives` carries the digest and the hash as functions, `Valid` assumes only that the digest has no '.', and `generateSessionId` is the parameter `plain`.
- `decodeURIComponent`: the parameter `decode`.
- Express: `res.cookie` and `res.removeHeader` act on a list of queued `Set-Cookie` lines. How Express turns `maxAge` into headers, and the error handler that turns an `AppError` into a response, are not modelled.
- Proxy.Set: requires the value assigned to an own field to fit the modelled field types. `sessionId` takes a string or null, `pairs` takes null, and `res`, `store` and `config` are never assigned.
- Proxy.Get: properties inherited from `Object.prototype`, such as `toString` and `__proto__`, read as `undefined`.
- Js.Assign: assigning `null` to `__proto__` replaces the object's prototype, after which reading its inherited methods fails. The model only records that no property is created.
- Guards.ValidateData: the `express-validator` result is the parameter `errors`.
- The configuration's `store`, `sessionGenerator` and `hashFunction` are the backend argument, `plain`, and `Primitives.hash`.
- JavaScript numbers are unbounded integers here. Double precision, fractions, and exponent texts such as `String(1e21)` are not modelled.
- Js.StringToNumber: reads only blank text and optionally signed decimal digits. Fractions, exponents, hexadecimal and `Infinity` read as NaN, where JavaScript would give a number.
- `expirationTime` is an integer. A string or fractional value would be coerced by JavaScript arithmetic, and that is not modelled.
- Three behaviours differ between the backends or from what the names suggest, and the model follows the code in each:
  - Redis pipelines are not atomic.
  - A negative time is ignored by Redis but not by the memory store.
  - Redis `deleteSession` removes all of the owner's sessions.

=== FILE: cookie.dfy ===
/** `Cookie.parse`: the request's `Cookie` header turned into a name-to-value
    object. The header is split on ';', each segment on '=', and the trimmed,
    URI-decoded first and second pieces become the name and the value. It is a
    loose reading of the cookie-string grammar of section 4.2.1 of RFC 6265:
    a segment with no '=' makes it throw, and a value holding a further '='
    is cut at that '='. */
module Cookie {
  import opened Wrappers
  import opened Js

  /** Why `Cookie.parse` throws: `decodeURIComponent` rejected a piece
      (URIError), or a segment had no '=' and the value piece was undefined
      (TypeError). */
  datatype ParseError = MalformedUri | MissingValue

  /** A name-value pair read from one segment. */
  type Entry = (string, string)

  /** `String.prototype.split` on a one-character separator: the pieces between
      separators, always at least one. */
  function Split(s: string, sep: char): (parts: seq<string>)
    ensures |parts| >= 1
    ensures forall i :: 0 <= i < |parts| ==> sep !in parts[i]
    decreases |s|
  {
    if s == [] then [[]]
    else
      var rest := Split(s[1..], sep);
      if s[0] == sep then [[]] + rest
      else [[s[0]] + rest[0]] + rest[1..]
  }

  /** `Array.prototype.join`: the pieces glued back with the separator. */
  function Join(parts: seq<string>, sep: char): string
    requires |parts| >= 1
  {
    if |parts| == 1 then parts[0] else parts[0] + [sep] + Join(parts[1..], sep)
  }

  /** Splitting loses nothing: joining the pieces gives the text back. */
  lemma {:induction false} JoinSplit(s: string, sep: char)
    ensures Join(Split(s, sep), sep) == s
    decreases |s|
  {
    if s != [] {
      var rest := Split(s[1..], sep);
      JoinSplit(s[1..], sep);
      var parts := Split(s, sep);
      if s[0] == sep {
        assert parts[1..] == rest;
        assert s == [sep] + s[1..];
      } else if |rest| == 1 {
        assert s == [s[0]] + s[1..];
      } else {
        assert parts[1..] == rest[1..];
        assert s == [s[0]] + s[1..];
      }
    }
  }

  /** A text without the separator is a single piece. */
  lemma {:induction false} SplitWithoutSeparator(s: string, sep: char)
    requires sep !in s
    ensures Split(s, sep) == [s]
    decreases |s|
  {
    if s != [] {
      assert sep !in s[1..];
      SplitWithoutSeparator(s[1..], sep);
      assert s == [s[0]] + s[1..];
    }
  }

  /** Splitting at a separator that ends the first piece. */
  lemma {:induction false} SplitAround(a: string, b: string, sep: char)
    requires sep !in a
    ensures Split(a + [sep] + b, sep) == [a] + Split(b, sep)
    decreases |a|
  {
    var s := a + [sep] + b;
    if a == [] {
      assert s[1..] == b;
    } else {
      assert s[1..] == a[1..] + [sep] + b;
      SplitAround(a[1..], b, sep);
      assert [a[0]] + a[1..] == a;
    }
  }

  /** One segment: the decoded name is read first, then the value piece;
      `decode` is `decodeURIComponent`, `None` where it throws. Only the text
      between the first and the second '=' is the value. */
  function ParseSegment(segment: string, decode: string -> Option<string>): (r: Result<Entry, ParseError>)
    ensures r.Success? ==> '=' in segment
    ensures '=' !in segment && decode(Trim(segment)).Some? ==> r == Failure(MissingValue)
  {
    var parts := Split(segment, '=');
    assert '=' !in segment ==> parts == [segment] by {
      if '=' !in segment { SplitWithoutSeparator(segment, '='); }
    }
    match decode(Trim(parts[0]))
    case None => Failure(MalformedUri)
    case Some(name) =>
      if |parts| < 2 then Failure(MissingValue)
      else
        match decode(Trim(parts[1]))
        case None => Failure(MalformedUri)
        case Some(value) => Success((name, value))
  }

  /** The segments read left to right; the first failing one decides the error. */
  function ParseSegments(segments: seq<string>, decode: string -> Option<string>): (r: Result<seq<Entry>, ParseError>)
    ensures r.Success? <==> forall i :: 0 <= i < |segments| ==> ParseSegment(segments[i], decode).Success?
    ensures r.Success? ==> |r.value| == |segments|
    ensures r.Success? ==> forall i :: 0 <= i < |segments| ==> ParseSegment(segments[i], decode) == Success(r.value[i])
  {
    if segments == [] then Success([])
    else
      var first :- ParseSegment(segments[0], decode);
      var rest :- ParseSegments(segments[1..], decode);
      Success([first] + rest)
  }

  /** The object the reduce builds: entries assigned left to right into `{}`,
      so `__proto__` never becomes a key. Every stored value is the value of
      an entry of that name. */
  function Collect(entries: seq<Entry>): (r: map<string, string>)
    ensures ProtoKey !in r
    ensures forall k :: k in r ==> exists i :: 0 <= i < |entries| && entries[i] == (k, r[k])
    decreases |entries|
  {
    if entries == [] then map[]
    else
      var init := entries[..|entries| - 1];
      var acc := Collect(init);
      var e := entries[|entries| - 1];
      assert forall i :: 0 <= i < |init| ==> init[i] == entries[i];
      Assign(acc, e.0, e.1)
  }

  /** `Cookie.parse(header)`; `None` is an absent header. */
  function Parse(header: Option<string>, decode: string -> Option<string>): (r: Result<map<string, string>, ParseError>)
    ensures header.None? || header == Some("") ==> r == Success(map[])
  {
    if header.None? || header.value == "" then Success(map[])
    else
      var entries :- ParseSegments(Split(header.value, ';'), decode);
      Success(Collect(entries))
  }

  /** Every name read becomes a key, and nothing else does: one entry per
      distinct name, `__proto__` aside. */
  lemma {:induction false} CollectKeys(entries: seq<Entry>)
    ensures Collect(entries).Keys == (set i | 0 <= i < |entries| :: entries[i].0) - {ProtoKey}
    decreases |entries|
  {
    if entries != [] {
      var init := entries[..|entries| - 1];
      CollectKeys(init);
      var s := set i | 0 <= i < |entries| :: entries[i].0;
      var t := set i | 0 <= i < |init| :: init[i].0;
      assert s == t + {entries[|entries| - 1].0} by {
        forall x | x in s ensures x in t + {entries[|entries| - 1].0} {
          var i :| 0 <= i < |entries| && entries[i].0 == x;
          if i < |init| {
            assert init[i].0 == x;
          }
        }
        forall x | x in t ensures x in s {
          var i :| 0 <= i < |init| && init[i].0 == x;
          assert entries[i].0 == x;
        }
      }
    }
  }

  /** The last segment carrying a name supplies its value. */
  lemma {:induction false} CollectLastWins(entries: seq<Entry>, i: nat)
    requires i < |entries| && entries[i].0 != ProtoKey
    requires forall j :: i < j < |entries| ==> entries[j].0 != entries[i].0
    ensures entries[i].0 in Collect(entries) && Collect(entries)[entries[i].0] == entries[i].1
    decreases |entries|
  {
    if i < |entries| - 1 {
      var init := entries[..|entries| - 1];
      CollectLastWins(init, i);
    }
  }

  /** A non-empty header parses exactly when every segment does. */
  lemma ParseSucceedsIff(h: string, decode: string -> Option<string>)
    requires h != ""
    ensures Parse(Some(h), decode).Success?
            <==> forall i :: 0 <= i < |Split(h, ';')| ==> ParseSegment(Split(h, ';')[i], decode).Success?
  {
  }

  /** With a non-empty header, the parsed object maps each name to the value
      of the last segment that carries it, and holds no other name. */
  lemma ParseLastWins(h: string, decode: string -> Option<string>, i: nat)
    requires h != "" && Parse(Some(h), decode).Success?
    requires i < |Split(h, ';')| && ParseSegment(Split(h, ';')[i], decode).value.0 != ProtoKey
    requires forall j :: i < j < |Split(h, ';')| ==>
               ParseSegment(Split(h, ';')[j], decode).value.0 != ParseSegment(Split(h, ';')[i], decode).value.0
    ensures ParseSegment(Split(h, ';')[i], decode).value.0 in Parse(Some(h), decode).value
    ensures Parse(Some(h), decode).value[ParseSegment(Split(h, ';')[i], decode).value.0]
            == ParseSegment(Split(h, ';')[i], decode).value.1
  {
    var entries := ParseSegments(Split(h, ';'), decode).value;
    CollectLastWins(entries, i);
  }

  lemma ParseKeys(h: string, decode: string -> Option<string>)
    requires h != "" && Parse(Some(h), decode).Success?
    ensures Parse(Some(h), decode).value.Keys
            == (set i | 0 <= i < |Split(h, ';')| :: ParseSegment(Split(h, ';')[i], decode).value.0) - {ProtoKey}
  {
    var segments := Split(h, ';');
    var entries := ParseSegments(segments, decode).value;
    CollectKeys(entries);
    assert (set i | 0 <= i < |entries| :: entries[i].0)
        == (set i | 0 <= i < |segments| :: ParseSegment(segments[i], decode).value.0);
  }

  /** A segment `n=v` with no further '=' reads the decoded, trimmed pieces. */
  lemma SegmentPieces(n: string, v: string, decode: string -> Option<string>)
    requires '=' !in n && '=' !in v
    ensures var r := ParseSegment(n + "=" + v, decode);
            && (r.Success? <==> decode(Trim(n)).Some? && decode(Trim(v)).Some?)
            && (r.Success? ==> r.value == (decode(Trim(n)).value, decode(Trim(v)).value))
  {
    SplitAround(n, v, '=');
    SplitWithoutSeparator(v, '=');
  }

  /** Whatever follows a second '=' in a segment is dropped. */
  lemma ValueStopsAtEquals(n: string, v: string, rest: string, decode: string -> Option<string>)
    requires '=' !in n && '=' !in v
    ensures ParseSegment(n + "=" + v + "=" + rest, decode) == ParseSegment(n + "=" + v, decode)
  {
    assert n + "=" + v + "=" + rest == n + ['='] + (v + ['='] + rest);
    SplitAround(n, v + ['='] + rest, '=');
    SplitAround(v, rest, '=');
    SplitAround(n, v, '=');
    SplitWithoutSeparator(v, '=');
  }

  /** A header of one segment is that segment's pair, unless its name is
      `__proto__`. */
  lemma SingleSegment(seg: string, decode: string -> Option<string>)
    requires seg != "" && ';' !in seg
    requires ParseSegment(seg, decode).Success? && ParseSegment(seg, decode).value.0 != ProtoKey
    ensures Parse(Some(seg), decode)
            == Success(map[ParseSegment(seg, decode).value.0 := ParseSegment(seg, decode).value.1])
  {
    SplitWithoutSeparator(seg, ';');
    var r := ParseSegments([seg], decode);
    assert ParseSegment([seg][0], decode) == Success(r.value[0]);
    assert r.value == [ParseSegment(seg, decode).value];
    assert r.value[..0] == [];
  }

  /** `name=value` as a whole header, with decoding that changes nothing,
      reads as the trimmed name and value. */
  lemma NamedCookie(n: string, v: string, decode: string -> Option<string>)
    requires ';' !in n && ';' !in v && '=' !in n && '=' !in v
    requires forall s :: decode(s) == Some(s)
    requires Trim(n) != ProtoKey
    ensures Parse(Some(n + "=" + v), decode) == Success(map[Trim(n) := Trim(v)])
  {
    SegmentPieces(n, v, decode);
    assert ';' !in n + "=" + v;
    assert (n + "=" + v)[|n|] == '=';
    SingleSegment(n + "=" + v, decode);
  }

  /** When decoding never fails, a segment with no '=' makes the whole parse
      throw the TypeError of reading the missing value. */
  lemma SegmentWithoutEqualsThrows(h: string, decode: string -> Option<string>, i: nat)
    requires h != "" && forall s :: decode(s).Some?
    requires i < |Split(h, ';')| && '=' !in Split(h, ';')[i]
    ensures Parse(Some(h), decode) == Failure(MissingValue)
  {
    var segments := Split(h, ';');
    SplitWithoutSeparator(segments[i], '=');
    assert ParseSegment(segments[i], decode).Failure?;
    OnlyMissingValue(segments, decode);
  }

  lemma {:induction false} OnlyMissingValue(segments: seq<string>, decode: string -> Option<string>)
    requires forall s :: decode(s).Some?
    ensures ParseSegments(segments, decode).Failure? ==> ParseSegments(segments, decode).error == MissingValue
  {
    if segments != [] {
      OnlyMissingValue(segments[1..], decode);
    }
  }
}

=== FILE: cookie_examples.dfy ===
/** Worked headers for `Cookie.parse`: the two-cookie header the test helper
    reads its `session` cookie from, a `Set-Cookie` line with a bare
    attribute, and a value holding a second '='. */
module CookieExamples {
  import opened Wrappers
  import opened Js
  import opened Cookie

  /** A piece that needs no trimming and holds neither separator. */
  predicate Plain(s: string) {
    s != [] && !IsSpace(s[0]) && !IsSpace(s[|s| - 1]) && ';' !in s && '=' !in s
  }

  lemma PlainSegment(n: string, v: string, decode: string -> Option<string>)
    requires Plain(n) && Plain(v) && forall s :: decode(s) == Some(s)
    ensures ParseSegment(n + "=" + v, decode) == Success((n, v))
  {
    SegmentPieces(n, v, decode);
    TrimInert(n);
    TrimInert(v);
  }

  lemma SpacedSegment(n: string, v: string, decode: string -> Option<string>)
    requires Plain(n) && Plain(v) && forall s :: decode(s) == Some(s)
    ensures ParseSegment(" " + n + "=" + v, decode) == Success((n, v))
  {
    assert " " + n + "=" + v == (" " + n) + "=" + v;
    SegmentPieces(" " + n, v, decode);
    assert (" " + n)[1..] == n;
    TrimInert(n);
    TrimInert(v);
  }

  lemma ParseTwoSegments(a: string, b: string, ea: Entry, eb: Entry, decode: string -> Option<string>)
    requires ParseSegment(a, decode) == Success(ea) && ParseSegment(b, decode) == Success(eb)
    ensures ParseSegments([a, b], decode) == Success([ea, eb])
  {
    var r := ParseSegments([a, b], decode);
    assert r.Success?;
    assert ParseSegment([a, b][0], decode) == Success(r.value[0]);
    assert ParseSegment([a, b][1], decode) == Success(r.value[1]);
    assert r.value == [ea, eb];
  }

  /** A header of two segments collects both pairs. */
  lemma TwoSegmentHeader(a: string, b: string, ea: Entry, eb: Entry, decode: string -> Option<string>)
    requires ';' !in a && ';' !in b
    requires ParseSegment(a, decode) == Success(ea) && ParseSegment(b, decode) == Success(eb)
    ensures Parse(Some(a + [';'] + b), decode) == Success(Collect([ea, eb]))
  {
    SplitAround(a, b, ';');
    SplitWithoutSeparator(b, ';');
    ParseTwoSegments(a, b, ea, eb, decode);
  }

  /** `n1=v1; n2=v2` reads as both pairs, the second winning if the names agree. */
  lemma TwoCookies(n1: string, v1: string, n2: string, v2: string, decode: string -> Option<string>)
    requires Plain(n1) && Plain(v1) && Plain(n2) && Plain(v2)
    requires n1 != ProtoKey && n2 != ProtoKey
    requires forall s :: decode(s) == Some(s)
    ensures Parse(Some(n1 + "=" + v1 + "; " + n2 + "=" + v2), decode) == Success(map[n1 := v1, n2 := v2])
  {
    var first := n1 + "=" + v1;
    var second := " " + n2 + "=" + v2;
    assert n1 + "=" + v1 + "; " + n2 + "=" + v2 == first + [';'] + second;
    assert ';' !in first && ';' !in second;
    PlainSegment(n1, v1, decode);
    SpacedSegment(n2, v2, decode);
    TwoSegmentHeader(first, second, (n1, v1), (n2, v2), decode);
    CollectTwo(n1, v1, n2, v2);
  }

  lemma CollectTwo(n1: string, v1: string, n2: string, v2: string)
    requires n1 != ProtoKey && n2 != ProtoKey
    ensures Collect([(n1, v1), (n2, v2)]) == map[n1 := v1, n2 := v2]
  {
    var entries := [(n1, v1), (n2, v2)];
    assert entries[..1] == [(n1, v1)];
    assert [(n1, v1)][..0] == [];
    assert Collect([(n1, v1)]) == map[n1 := v1];
  }

  /** The header the test helper reads its session token from. */
  lemma ExampleTwoCookies(decode: string -> Option<string>)
    requires forall s :: decode(s) == Some(s)
    ensures Parse(Some("foo=bar; session=abc"), decode) == Success(map["foo" := "bar", "session" := "abc"])
  {
    assert "foo=bar; session=abc" == "foo" + "=" + "bar" + "; " + "session" + "=" + "abc";
    TwoCookies("foo", "bar", "session", "abc", decode);
  }

  /** A segment with no '=' after a first one makes the parse throw. */
  lemma BareSecondSegment(first: string, attr: string, decode: string -> Option<string>)
    requires ';' !in first && ';' !in attr && '=' !in attr
    requires forall s :: decode(s).Some?
    ensures Parse(Some(first + "; " + attr), decode) == Failure(MissingValue)
  {
    var h := first + "; " + attr;
    assert h == first + [';'] + (" " + attr);
    assert ';' !in " " + attr && '=' !in " " + attr;
    SplitAround(first, " " + attr, ';');
    SplitWithoutSeparator(" " + attr, ';');
    SegmentWithoutEqualsThrows(h, decode, 1);
  }

  /** A `Set-Cookie` line's bare `HttpOnly` attribute has no '=' and makes
      the parse throw. */
  lemma ExampleBareAttribute(decode: string -> Option<string>)
    requires forall s :: decode(s).Some?
    ensures Parse(Some("session=abc; HttpOnly"), decode) == Failure(MissingValue)
  {
    assert "session=abc; HttpOnly" == "session=abc" + "; " + "HttpOnly";
    BareSecondSegment("session=abc", "HttpOnly", decode);
  }

  /** With decoding that changes nothing, the segment `n=v=rest` is the
      trimmed `n` and `v`. */
  lemma SegmentWithEquals(n: string, v: string, rest: string, decode: string -> Option<string>)
    requires '=' !in n && '=' !in v
    requires forall s :: decode(s) == Some(s)
    ensures ParseSegment(n + "=" + v + "=" + rest, decode) == Success((Trim(n), Trim(v)))
  {
    ValueStopsAtEquals(n, v, rest, decode);
    SegmentPieces(n, v, decode);
  }

  /** A value holding a further '=' is cut there: `n=v=rest` reads as the
      trimmed `n` and `v` alone. */
  lemma ValueWithEquals(n: string, v: string, rest: string, decode: string -> Option<string>)
    requires ';' !in n && ';' !in v && ';' !in rest && '=' !in n && '=' !in v
    requires forall s :: decode(s) == Some(s)
    requires Trim(n) != ProtoKey
    ensures Parse(Some(n + "=" + v + "=" + rest), decode) == Success(map[Trim(n) := Trim(v)])
  {
    var h := n + "=" + v + "=" + rest;
    SegmentWithEquals(n, v, rest, decode);
    assert ';' !in h;
    SingleSegment(h, decode);
  }
}

=== FILE: crypto.dfy ===
/** The keyed primitives the session layer uses without defining them, and the
    token shape `cookie-signature` builds from them. */
module Crypto {
  import opened Wrappers

  /** `mac(value, secret)` is the digest `cookie-signature` appends to a value:
      HMAC-SHA256 (RFC 2104) in unpadded base64. `hash(text)` is the hexadecimal
      SHA-1 digest (FIPS 180-4) `hashSessionId` returns. Both are supplied by
      the caller; the model relies only on `Valid`. */
  datatype Primitives = Primitives(mac: (string, string) -> string, hash: string -> string)

  /** The digest alphabet holds no '.', the separator a signed token puts
      before its digest. */
  ghost predicate Valid(p: Primitives) {
    forall value, secret :: '.' !in p.mac(value, secret)
  }

  /** `cookie.sign(value, secret)`: the value, a '.', and its digest. With a
      valid digest alphabet the value ends exactly at the token's last '.'. */
  function Sign(p: Primitives, value: string, secret: string): (r: string)
    ensures |r| > |value| && r[..|value|] == value && r[|value|] == '.'
    ensures r[|value| + 1..] == p.mac(value, secret)
    ensures Valid(p) ==> LastIndexOf(r, '.') == |value|
  {
    var r := value + "." + p.mac(value, secret);
    assert r[|value| + 1..] == p.mac(value, secret);
    assert Valid(p) ==> LastIndexOf(r, '.') == |value| by {
      if Valid(p) {
        LastIndexOfUnique(r, '.', |value|);
      }
    }
    r
  }

  /** `String.prototype.lastIndexOf` for one character; -1 when absent. */
  function LastIndexOf(s: string, c: char): (i: int)
    ensures -1 <= i < |s|
    ensures i == -1 ==> c !in s
    ensures i >= 0 ==> s[i] == c && c !in s[i + 1..]
  {
    if s == [] then -1
    else if s[|s| - 1] == c then |s| - 1
    else
      var i := LastIndexOf(s[..|s| - 1], c);
      assert i >= 0 ==> s[i + 1..] == s[..|s| - 1][i + 1..] + [s[|s| - 1]];
      i
  }

  /** `cookie.unsign(token, secret)`: the text before the last '.' (for a token
      without one, `slice(0, -1)` drops its last character), accepted only if
      signing it again reproduces the token; `None` stands for `false`. */
  function Unsign(p: Primitives, token: string, secret: string): (r: Option<string>)
    ensures r.Some? ==> Sign(p, r.value, secret) == token
  {
    var i := LastIndexOf(token, '.');
    var tentative := if i >= 0 then token[..i] else if token == [] then [] else token[..|token| - 1];
    if Sign(p, tentative, secret) == token then Some(tentative) else None
  }

  /** `hashFunction(plain + secret)`: the storage key a plaintext id stands for. */
  function StorageKey(p: Primitives, plain: string, secret: string): string {
    p.hash(plain + secret)
  }

  lemma LastIndexOfUnique(s: string, c: char, i: nat)
    requires i < |s| && s[i] == c && c !in s[i + 1..]
    ensures LastIndexOf(s, c) == i
  {
  }

  /** A signed value verifies against the secret it was signed with. */
  lemma UnsignSign(p: Primitives, value: string, secret: string)
    requires Valid(p)
    ensures Unsign(p, Sign(p, value, secret), secret) == Some(value)
  {
    var t := Sign(p, value, secret);
    assert t[|value|] == '.';
    assert t[|value| + 1..] == p.mac(value, secret);
    LastIndexOfUnique(t, '.', |value|);
    assert t[..|value|] == value;
  }
}

=== FILE: guards.dfy ===
/** The route guards: they read `req.session` through the proxy and either call
    `next()` once or stop the request. */
module Guards {
  import opened Json
  import opened Sessions
  import opened Proxy

  /** How a guard ends: `next()` called once; an `AppError` thrown with its
      status; a response sent with the validation errors; or a TypeError from
      calling something that is not a function. */
  datatype Outcome = Next | Raise(status: int, message: string) | Respond(status: int, errors: seq<string>) | Fault

  /** Loose `!= null`: false for `null` and `undefined` only. */
  predicate NotNullish(r: Read) {
    !(r == Val(Null) || r.Undefined?)
  }

  /** Loose truthiness of a property read: functions and objects are truthy. */
  predicate ReadTruthy(r: Read) {
    match r
    case Val(v) => Truthy(v)
    case Undefined => false
    case Internal(_) => true
    case Throws => false
  }

  /** `loginRequired`: `req.session.exists()` — the method is looked up through
      the proxy, and so is the `this.sessionId` it reads. */
  function LoginRequired(s: Session): (r: Outcome)
    ensures r == Next || r == Raise(401, "You are not authorized.") || r == Fault
    ensures r == Fault <==> Get(s, "exists") != Internal("exists")
    ensures r == Next <==> Get(s, "exists") == Internal("exists") && NotNullish(Get(s, "sessionId"))
  {
    if Get(s, "exists") != Internal("exists") then Fault
    else if NotNullish(Get(s, "sessionId")) then Next
    else Raise(401, "You are not authorized.")
  }

  /** `adminPrivilegeRequired`: 403 unless `req.session.isAdmin` is truthy;
      a read that throws propagates. */
  function AdminPrivilegeRequired(s: Session): (r: Outcome)
    ensures r == Next || r == Raise(403, "Admin priviledge required.") || r == Fault
    ensures r == Fault <==> Get(s, "isAdmin").Throws?
    ensures r == Next <==> ReadTruthy(Get(s, "isAdmin"))
  {
    if Get(s, "isAdmin").Throws? then Fault
    else if ReadTruthy(Get(s, "isAdmin")) then Next
    else Raise(403, "Admin priviledge required.")
  }

  /** `validateData`, given the validator's error list: 400 with the errors, or
      `next()`. */
  function ValidateData(errors: seq<string>): (r: Outcome)
    ensures r == Next <==> errors == []
    ensures r != Next ==> r == Respond(400, errors)
  {
    if errors != [] then Respond(400, errors) else Next
  }

  // ---------------------------------------------------------------- properties

  /** When no pair is named `exists` or `sessionId`, `loginRequired` lets the
      request through exactly when `exists()` holds and no `hasOwnProperty`
      pair makes the lookup of `exists` throw. */
  lemma LoginRequiredIffExists(s: Session)
    requires s.pairs.None? || ("exists" !in s.pairs.value && "sessionId" !in s.pairs.value)
    ensures LoginRequired(s) == Next <==> Exists(s) && !OwnCheckShadowed(s)
    ensures OwnCheckShadowed(s) ==> LoginRequired(s) == Fault
    ensures !OwnCheckShadowed(s) && LoginRequired(s) != Next ==> LoginRequired(s) == Raise(401, "You are not authorized.")
  {
  }

  /** A pair can decide `loginRequired`: a stored pair `sessionId` of `null`
      locks out a logged-in session, and a pair `exists` makes the guard
      throw instead of answering. */
  lemma PairsDecideLogin(s: Session)
    requires s.pairs.Some?
    ensures "exists" !in s.pairs.value && OwnCheck !in s.pairs.value
            && "sessionId" in s.pairs.value && s.pairs.value["sessionId"] == Null
            ==> LoginRequired(s) == Raise(401, "You are not authorized.")
    ensures "exists" in s.pairs.value || OwnCheck in s.pairs.value ==> LoginRequired(s) == Fault
  {
  }

  /** `isAdmin` is read from the pairs: an admin is a session whose pairs say
      so with a truthy value, and a session without pairs is never one. */
  lemma AdminFromPairs(s: Session)
    ensures s.pairs.None? ==> AdminPrivilegeRequired(s) == Raise(403, "Admin priviledge required.")
    ensures s.pairs.Some? ==>
              (AdminPrivilegeRequired(s) == Next
               <==> OwnCheck !in s.pairs.value && "isAdmin" in s.pairs.value && Truthy(s.pairs.value["isAdmin"]))
    ensures OwnCheckShadowed(s) ==> AdminPrivilegeRequired(s) == Fault
  {
  }

  /** The anonymous session of a request without a valid cookie passes no
      guard that needs a login or the admin flag. */
  lemma AnonymousRejected()
    ensures LoginRequired(Empty()) == Raise(401, "You are not authorized.")
    ensures AdminPrivilegeRequired(Empty()) == Raise(403, "Admin priviledge required.")
  {
  }
}

=== FILE: js.dfy ===
/** The two JavaScript built-ins the session code leans on without naming them:
    `String.prototype.trim`, which `Cookie.parse` applies to every piece, and
    the conversion of a value to a number that `<` performs when a stored
    deadline is compared with `Date.now()` (section 7.1.4 of ECMA-262). */
module Js {
  import opened Wrappers
  import opened Json

  /** JavaScript WhiteSpace and LineTerminator characters: what `trim` strips. */
  predicate IsSpace(c: char) {
    || c == ' ' || c == '\t' || c == '\n' || c == '\r'
    || c as int == 0x0B || c as int == 0x0C || c as int == 0xA0 || c as int == 0x1680
    || (0x2000 <= c as int <= 0x200A)
    || c as int == 0x2028 || c as int == 0x2029 || c as int == 0x202F
    || c as int == 0x205F || c as int == 0x3000 || c as int == 0xFEFF
  }

  /** The text after its leading spaces. */
  function TrimStart(s: string): (r: string)
    ensures |r| <= |s|
    ensures r == [] || !IsSpace(r[0])
  {
    if s != [] && IsSpace(s[0]) then TrimStart(s[1..]) else s
  }

  /** The text before its trailing spaces. */
  function TrimEnd(s: string): (r: string)
    ensures |r| <= |s|
    ensures r == [] || !IsSpace(r[|r| - 1])
  {
    if s != [] && IsSpace(s[|s| - 1]) then TrimEnd(s[..|s| - 1]) else s
  }

  /** `TrimStart` drops a prefix of spaces. */
  lemma {:induction false} TrimStartSuffix(s: string)
    ensures TrimStart(s) == s[|s| - |TrimStart(s)|..]
    ensures forall i :: 0 <= i < |s| - |TrimStart(s)| ==> IsSpace(s[i])
  {
    if s != [] && IsSpace(s[0]) {
      TrimStartSuffix(s[1..]);
      var r := TrimStart(s);
      assert s[1..][|s| - 1 - |r|..] == s[|s| - |r|..];
      assert forall i :: 1 <= i < |s| - |r| ==> s[i] == s[1..][i - 1];
    }
  }

  /** `TrimEnd` drops a suffix of spaces, and keeps a first character that is
      not one. */
  lemma {:induction false} TrimEndPrefix(s: string)
    ensures TrimEnd(s) == s[..|TrimEnd(s)|]
    ensures forall i :: |TrimEnd(s)| <= i < |s| ==> IsSpace(s[i])
    ensures s != [] && !IsSpace(s[0]) ==> TrimEnd(s) != []
  {
    if s != [] && IsSpace(s[|s| - 1]) {
      TrimEndPrefix(s[..|s| - 1]);
      var r := TrimEnd(s);
      assert s[..|s| - 1][..|r|] == s[..|r|];
      assert forall i :: |r| <= i < |s| - 1 ==> s[i] == s[..|s| - 1][i];
    }
  }

  /** `s` is `r` at offset `i` with only spaces before and after it. */
  predicate PaddedAt(s: string, r: string, i: int) {
    && 0 <= i && i + |r| <= |s| && r == s[i..i + |r|]
    && (forall k :: 0 <= k < i ==> IsSpace(s[k]))
    && (forall k :: i + |r| <= k < |s| ==> IsSpace(s[k]))
  }

  /** `String.prototype.trim`: the result neither starts nor ends with a
      space. */
  function Trim(s: string): (r: string)
    ensures r == [] || (!IsSpace(r[0]) && !IsSpace(r[|r| - 1]))
  {
    var t := TrimStart(s);
    TrimEndPrefix(t);
    TrimEnd(t)
  }

  /** `trim` removes exactly the surrounding spaces: the text is the result
      padded with spaces on both sides. */
  lemma TrimPadded(s: string)
    ensures exists i :: PaddedAt(s, Trim(s), i)
  {
    var t := TrimStart(s);
    var r := TrimEnd(t);
    assert Trim(s) == r;
    var i := |s| - |t|;
    TrimStartSuffix(s);
    TrimEndPrefix(t);
    assert r == s[i..i + |r|];
    assert forall k :: i + |r| <= k < |s| ==> s[k] == t[k - i];
    assert PaddedAt(s, r, i);
  }

  /** A text with no surrounding space is left alone by `trim`. */
  lemma TrimInert(s: string)
    requires s == [] || (!IsSpace(s[0]) && !IsSpace(s[|s| - 1]))
    ensures Trim(s) == s
  {
  }

  // ---------------------------------------------------------------- plain objects

  /** The one name whose assignment on a plain object creates no property:
      `obj.__proto__ = v` runs the accessor `Object.prototype` supplies, which
      ignores a string, number or boolean. */
  const ProtoKey := "__proto__"

  /** `obj[key] = v` on a plain object, for a scalar `v`: the property is
      created or overwritten, except that `__proto__` creates nothing unless
      the object already owns a property of that name. */
  function Assign<V>(obj: map<string, V>, key: string, v: V): (r: map<string, V>)
    ensures r.Keys == if key == ProtoKey && key !in obj then obj.Keys else obj.Keys + {key}
    ensures forall f :: f in r ==> r[f] == if f == key then v else obj[f]
  {
    if key == ProtoKey && key !in obj then obj else obj[key := v]
  }

  // ---------------------------------------------------------------- numbers

  /** `Number(s)` for a text: the trimmed text read as an optionally signed
      run of decimal digits, 0 for a blank text, and `None` for NaN. */
  function StringToNumber(s: string): (r: Option<int>)
    ensures Trim(s) == "" ==> r == Some(0)
    ensures Trim(s) != "" && AllDigits(Trim(s)) ==> r == Some(DigitsValue(Trim(s)))
  {
    var t := Trim(s);
    if t == "" then Some(0)
    else if AllDigits(t) then Some(DigitsValue(t))
    else if |t| >= 2 && (t[0] == '-' || t[0] == '+') && AllDigits(t[1..]) then
      Some(if t[0] == '-' then -(DigitsValue(t[1..]) as int) else DigitsValue(t[1..]))
    else None
  }

  /** `Number(v)` for a scalar; `None` is NaN. */
  function ToNumber(v: Value): Option<int> {
    match v
    case Null => Some(0)
    case Bool(b) => Some(if b then 1 else 0)
    case Num(n) => Some(n)
    case Str(s) => StringToNumber(s)
  }

  /** `v < n` for a scalar `v` and a number `n`: false when `v` is NaN. */
  predicate Below(v: Value, n: int) {
    ToNumber(v).Some? && ToNumber(v).value < n
  }

  lemma DigitsToNumber(m: nat)
    ensures StringToNumber(Digits(m)) == Some(m)
  {
    var d := Digits(m);
    assert !IsSpace(d[0]) && !IsSpace(d[|d| - 1]);
    TrimInert(d);
    DigitsValueOfDigits(m);
  }

  /** A '-' before digits, with nothing to trim, reads as the negated digits. */
  lemma NegativeText(t: string)
    requires Trim(t) == t && |t| >= 2 && t[0] == '-' && AllDigits(t[1..])
    ensures StringToNumber(t) == Some(-(DigitsValue(t[1..]) as int))
  {
    assert !AllDigits(t) by { assert !IsDigit(t[0]); }
  }

  lemma NegativeDigitsToNumber(m: nat)
    requires m > 0
    ensures StringToNumber("-" + Digits(m)) == Some(-(m as int))
  {
    var d := Digits(m);
    var t := "-" + d;
    assert t[1..] == d;
    assert t[|t| - 1] == d[|d| - 1];
    assert !IsSpace(t[0]) && !IsSpace(t[|t| - 1]);
    TrimInert(t);
    NegativeText(t);
    DigitsValueOfDigits(m);
  }

  /** `Number(String(n))` is `n`: the text of an integer reads back as it. */
  lemma NumberTextToNumber(n: int)
    ensures StringToNumber(NumberText(n)) == Some(n)
  {
    if n < 0 {
      NegativeDigitsToNumber(-n);
    } else {
      DigitsToNumber(n);
    }
  }

  /** The text of an integer is truthy (it is never empty) and compares with
      `<` as the integer itself. */
  lemma NumberTextCompares(n: int, m: int)
    ensures Truthy(Str(NumberText(n)))
    ensures Below(Str(NumberText(n)), m) <==> n < m
  {
    NumberTextToNumber(n);
    if n < 0 {
      assert NumberText(n)[0] == '-';
    } else {
      assert |Digits(n)| >= 1;
    }
  }
}

=== FILE: json.dfy ===
/** The JavaScript scalar values a session carries, and the two text forms they
    take on the way to Redis: the JSON form (`JSON.stringify` on write,
    `JSON.parse` on read) and the plain `String(v)` form the Redis client sends
    for a value passed without encoding.

    The reader `Parse` accepts exactly the canonical texts the writer produces;
    `ParseIffStringify` proves the two are inverse bijections. */
module Json {
  import opened Wrappers

  /** A JSON scalar. Numbers are integers (session attributes and user ids in
      this system are ids, flags and timestamps). */
  datatype Value = Null | Bool(b: bool) | Num(n: int) | Str(s: string)

  /** JavaScript truthiness of a scalar. */
  predicate Truthy(v: Value) {
    match v
    case Null => false
    case Bool(b) => b
    case Num(n) => n != 0
    case Str(s) => s != ""
  }

  // ---------------------------------------------------------------- digits

  predicate IsDigit(c: char) {
    '0' <= c <= '9'
  }

  predicate AllDigits(s: string) {
    forall i :: 0 <= i < |s| ==> IsDigit(s[i])
  }

  function DigitChar(d: nat): (c: char)
    requires d < 10
    ensures IsDigit(c)
  {
    ('0' as int + d) as char
  }

  function DigitValue(c: char): (d: nat)
    requires IsDigit(c)
    ensures d < 10 && DigitChar(d) == c
  {
    c as int - '0' as int
  }

  /** The shortest decimal form of `n`: digits only, and no leading zero
      unless `n` is zero. */
  function Digits(n: nat): (s: string)
    ensures |s| >= 1 && AllDigits(s)
    ensures s[0] == '0' ==> n == 0
    decreases n
  {
    if n < 10 then [DigitChar(n)] else Digits(n / 10) + [DigitChar(n % 10)]
  }

  /** The number a run of decimal digits denotes. */
  function DigitsValue(s: string): nat
    requires AllDigits(s)
  {
    if s == [] then 0 else DigitsValue(s[..|s| - 1]) * 10 + DigitValue(s[|s| - 1])
  }

  /** Reads a JSON natural number: non-empty, digits only, no leading zero. */
  function ParseNat(t: string): Option<nat> {
    if t == [] || !AllDigits(t) || (|t| > 1 && t[0] == '0') then None
    else Some(DigitsValue(t))
  }

  lemma {:induction false} DigitsValueOfDigits(n: nat)
    ensures DigitsValue(Digits(n)) == n
    decreases n
  {
    if n >= 10 {
      var s := Digits(n);
      assert s[..|s| - 1] == Digits(n / 10);
      DigitsValueOfDigits(n / 10);
    }
  }

  lemma ParseNatDigits(n: nat)
    ensures ParseNat(Digits(n)) == Some(n)
  {
    DigitsValueOfDigits(n);
  }

  lemma {:induction false} DigitsValuePositive(s: string)
    requires |s| >= 1 && AllDigits(s) && s[0] != '0'
    ensures DigitsValue(s) >= 1
    decreases |s|
  {
    if |s| > 1 {
      DigitsValuePositive(s[..|s| - 1]);
    }
  }

  /** Only the canonical text of a number is read back as that number. */
  lemma {:induction false} ParseNatCanonical(t: string, m: nat)
    requires ParseNat(t) == Some(m)
    ensures t == Digits(m)
    decreases |t|
  {
    if |t| > 1 {
      var init := t[..|t| - 1];
      assert ParseNat(init) == Some(DigitsValue(init));
      ParseNatCanonical(init, DigitsValue(init));
      DigitsValuePositive(init);
      assert t == init + [t[|t| - 1]];
    }
  }

  /** `String(n)` and `JSON.stringify(n)` of an integer. */
  function NumberText(n: int): string {
    if n < 0 then "-" + Digits(-n) else Digits(n)
  }

  // ---------------------------------------------------------------- strings

  predicate IsHex(c: char) {
    IsDigit(c) || 'a' <= c <= 'f'
  }

  function HexDigit(d: nat): (c: char)
    requires d < 16
    ensures IsHex(c)
  {
    if d < 10 then DigitChar(d) else ('a' as int + d - 10) as char
  }

  function HexValue(c: char): (d: nat)
    requires IsHex(c)
    ensures d < 16 && HexDigit(d) == c
  {
    if IsDigit(c) then DigitValue(c) else c as int - 'a' as int + 10
  }

  /** Control characters with a two-character escape: \b \t \n \f \r. */
  predicate HasShortEscape(code: int) {
    code == 8 || code == 9 || code == 10 || code == 12 || code == 13
  }

  /** How `JSON.stringify` writes one character inside a string literal. */
  function EscapeChar(c: char): (e: string)
    ensures |e| >= 1
  {
    if c == '"' then "\\\""
    else if c == '\\' then "\\\\"
    else if c as int == 8 then "\\b"
    else if c as int == 12 then "\\f"
    else if c == '\n' then "\\n"
    else if c == '\r' then "\\r"
    else if c == '\t' then "\\t"
    else if c as int < 0x20 then "\\u00" + [HexDigit(c as int / 16), HexDigit(c as int % 16)]
    else [c]
  }

  function Escape(s: string): string {
    if s == [] then [] else EscapeChar(s[0]) + Escape(s[1..])
  }

  /** Reads one escape sequence at the head of `e` (which starts with a
      backslash): the character it stands for and how many characters it used. */
  function UnescapeOne(e: string): (r: Option<(char, nat)>)
    requires |e| >= 1 && e[0] == '\\'
    ensures r.Some? ==> 2 <= r.value.1 <= |e|
  {
    if |e| < 2 then None
    else if e[1] == '"' then Some(('"', 2))
    else if e[1] == '\\' then Some(('\\', 2))
    else if e[1] == 'b' then Some((8 as char, 2))
    else if e[1] == 'f' then Some((12 as char, 2))
    else if e[1] == 'n' then Some(('\n', 2))
    else if e[1] == 'r' then Some(('\r', 2))
    else if e[1] == 't' then Some(('\t', 2))
    else if e[1] == 'u' && |e| >= 6 && e[2] == '0' && e[3] == '0'
            && (e[4] == '0' || e[4] == '1') && IsHex(e[5]) then
      var code := HexValue(e[4]) * 16 + HexValue(e[5]);
      if HasShortEscape(code) then None else Some((code as char, 6))
    else None
  }

  /** Reads the body of a string literal: no bare quote, no bare control
      character, and only the escapes `Escape` writes. */
  function Unescape(e: string): Option<string>
    decreases |e|
  {
    if e == [] then Some([])
    else if e[0] == '"' || e[0] as int < 0x20 then None
    else if e[0] != '\\' then
      var rest :- Unescape(e[1..]);
      Some([e[0]] + rest)
    else
      var one :- UnescapeOne(e);
      var rest :- Unescape(e[one.1..]);
      Some([one.0] + rest)
  }

  lemma UnescapeOneOfEscape(c: char, rest: string)
    requires EscapeChar(c) != [c]
    ensures UnescapeOne(EscapeChar(c) + rest) == Some((c, |EscapeChar(c)|))
  {
    var e := EscapeChar(c) + rest;
    if c as int < 0x20 && !HasShortEscape(c as int) {
      assert e[..6] == "\\u00" + [HexDigit(c as int / 16), HexDigit(c as int % 16)];
      assert e[1] == 'u' && e[2] == '0' && e[3] == '0';
      assert HexValue(e[4]) == c as int / 16;
      assert HexValue(e[5]) == c as int % 16;
    }
  }

  lemma UnescapeAfterEscapeChar(c: char, rest: string)
    ensures Unescape(EscapeChar(c) + rest)
            == (match Unescape(rest) case None => None case Some(x) => Some([c] + x))
  {
    var e := EscapeChar(c) + rest;
    if EscapeChar(c) == [c] {
      assert e[1..] == rest;
    } else {
      UnescapeOneOfEscape(c, rest);
      assert e[|EscapeChar(c)|..] == rest;
    }
  }

  lemma {:induction false} UnescapeEscape(s: string)
    ensures Unescape(Escape(s)) == Some(s)
  {
    if s != [] {
      UnescapeAfterEscapeChar(s[0], Escape(s[1..]));
      UnescapeEscape(s[1..]);
      assert [s[0]] + s[1..] == s;
    }
  }

  lemma UnescapeOneExact(e: string)
    requires |e| >= 1 && e[0] == '\\' && UnescapeOne(e).Some?
    ensures e[..UnescapeOne(e).value.1] == EscapeChar(UnescapeOne(e).value.0)
  {
    var one := UnescapeOne(e).value;
    if one.1 == 6 {
      var code := HexValue(e[4]) * 16 + HexValue(e[5]);
      assert code / 16 == HexValue(e[4]) && code % 16 == HexValue(e[5]);
      assert one.0 as int == code;
    }
  }

  lemma EscapeOfPlainChar(c: char, rest: string)
    requires c != '"' && c != '\\' && c as int >= 0x20
    ensures Escape([c] + rest) == [c] + Escape(rest)
  {
    assert ([c] + rest)[1..] == rest;
  }

  lemma EscapeOfEscaped(e: string, rest: string)
    requires |e| >= 1 && e[0] == '\\' && UnescapeOne(e).Some?
    requires e[UnescapeOne(e).value.1..] == Escape(rest)
    ensures e == Escape([UnescapeOne(e).value.0] + rest)
  {
    var one := UnescapeOne(e).value;
    UnescapeOneExact(e);
    assert ([one.0] + rest)[1..] == rest;
    assert e == e[..one.1] + e[one.1..];
  }

  /** Only the canonical text of a string body is read back as that string. */
  lemma {:induction false} EscapeOfUnescape(e: string, s: string)
    requires Unescape(e) == Some(s)
    ensures e == Escape(s)
    decreases |e|
  {
    if e != [] {
      if e[0] != '\\' {
        var rest := Unescape(e[1..]).value;
        EscapeOfUnescape(e[1..], rest);
        assert s == [e[0]] + rest;
        EscapeOfPlainChar(e[0], rest);
        assert e == [e[0]] + e[1..];
      } else {
        var one := UnescapeOne(e).value;
        var rest := Unescape(e[one.1..]).value;
        EscapeOfUnescape(e[one.1..], rest);
        assert s == [one.0] + rest;
        EscapeOfEscaped(e, rest);
      }
    }
  }

  lemma {:induction false} EscapeLength(s: string)
    ensures |Escape(s)| >= |s|
  {
    if s != [] {
      EscapeLength(s[1..]);
    }
  }

  // ---------------------------------------------------------------- values

  /** `JSON.stringify(v)`. */
  function Stringify(v: Value): string {
    match v
    case Null => "null"
    case Bool(b) => if b then "true" else "false"
    case Num(n) => NumberText(n)
    case Str(s) => "\"" + Escape(s) + "\""
  }

  /** `JSON.parse(t)` on canonical texts; `None` where it would throw. */
  function Parse(t: string): Option<Value> {
    if t == "null" then Some(Null)
    else if t == "true" then Some(Bool(true))
    else if t == "false" then Some(Bool(false))
    else if |t| >= 2 && t[0] == '"' && t[|t| - 1] == '"' then
      var s :- Unescape(t[1..|t| - 1]);
      Some(Str(s))
    else if |t| >= 1 && t[0] == '-' then
      var m :- ParseNat(t[1..]);
      if m == 0 then None else Some(Num(-(m as int)))
    else
      var m :- ParseNat(t);
      Some(Num(m))
  }

  /** `String(v)`: the text the Redis client sends for a value passed as is. */
  function RawForm(v: Value): string {
    match v
    case Str(s) => s
    case _ => Stringify(v)
  }

  lemma ParseNumberText(n: int)
    ensures Parse(NumberText(n)) == Some(Num(n))
  {
    var t := NumberText(n);
    if n < 0 {
      assert t[0] == '-' && t[1..] == Digits(-n);
      assert t != "null" && t != "true" && t != "false";
      ParseNatDigits(-n);
    } else {
      assert IsDigit(t[0]);
      assert t != "null" && t != "true" && t != "false";
      ParseNatDigits(n);
    }
  }

  lemma ParseStringLiteral(s: string)
    ensures Parse("\"" + Escape(s) + "\"") == Some(Str(s))
  {
    var t := "\"" + Escape(s) + "\"";
    assert t[0] == '"' && t[|t| - 1] == '"';
    assert t != "null" && t != "true" && t != "false";
    assert t[1..|t| - 1] == Escape(s);
    UnescapeEscape(s);
  }

  lemma ParseStringify(v: Value)
    ensures Parse(Stringify(v)) == Some(v)
  {
    match v
    case Null =>
    case Bool(b) =>
    case Num(n) => ParseNumberText(n);
    case Str(s) => ParseStringLiteral(s);
  }

  lemma StringifyOfParse(t: string, v: Value)
    requires Parse(t) == Some(v)
    ensures Stringify(v) == t
  {
    if t == "null" || t == "true" || t == "false" {
    } else if |t| >= 2 && t[0] == '"' && t[|t| - 1] == '"' {
      var inner := t[1..|t| - 1];
      EscapeOfUnescape(inner, v.s);
      assert t == "\"" + inner + "\"";
    } else if |t| >= 1 && t[0] == '-' {
      var m := ParseNat(t[1..]).value;
      ParseNatCanonical(t[1..], m);
      assert t == "-" + t[1..];
    } else {
      ParseNatCanonical(t, ParseNat(t).value);
    }
  }

  /** The JSON reader inverts the writer, and accepts nothing else. */
  lemma ParseIffStringify(t: string, v: Value)
    ensures Parse(t) == Some(v) <==> t == Stringify(v)
  {
    if Parse(t) == Some(v) {
      StringifyOfParse(t, v);
    }
    if t == Stringify(v) {
      ParseStringify(v);
    }
  }

  /** A value written with `String()` and read with `JSON.parse` comes back
      unchanged exactly when it is not a string: a string's plain text is
      never its own JSON literal. */
  lemma RawFormRoundTripIff(v: Value)
    ensures Parse(RawForm(v)) == Some(v) <==> !v.Str?
  {
    if v.Str? {
      if Parse(v.s) == Some(v) {
        StringifyOfParse(v.s, v);
        EscapeLength(v.s);
        assert false;
      }
    } else {
      ParseStringify(v);
    }
  }
}

=== FILE: memory_store.dfy ===
/** `MemoryStore`: a `Map` from storage key to a plain session object
    `{userId, ...pairs, expirationTime}`. Expiry is checked lazily on read and
    by a periodic sweep, here the explicit step `Sweep(now)`; `now` is
    `Date.now()` in milliseconds. */
module MemoryStore {
  import opened Wrappers
  import opened Json
  import opened Js
  import opened StoreTypes

  /** A stored session object. */
  type Record = map<string, Value>

  datatype Store = Store(sessions: map<string, Record>)

  /** What `getSession` returns, with the store as it leaves it. */
  datatype Fetch = Fetch(store: Store, data: Option<SessionData>)

  const UserIdField := "userId"
  const ExpirationField := "expirationTime"

  /** `value.expirationTime && value.expirationTime < Date.now()`: a truthy
      deadline that converts to a number below the clock. */
  predicate Expired(rec: Record, now: int) {
    ExpirationField in rec && Truthy(rec[ExpirationField]) && Below(rec[ExpirationField], now)
  }

  function Empty(): Store {
    Store(map[])
  }

  /** `addSession(k, u, pairs)`: stores `Object.assign({userId: u}, pairs)`,
      so a `userId` among the pairs overrides `u`. `Object.assign` assigns
      each pair in turn, so an own `__proto__` pair creates no field
      (`Js.Assign`). */
  function AddSession(st: Store, k: string, u: Value, pairs: Option<Record>): (r: Store)
    ensures r.sessions.Keys == st.sessions.Keys + {k}
    ensures forall k' :: k' in st.sessions && k' != k ==> r.sessions[k'] == st.sessions[k']
    ensures r.sessions[k].Keys == {UserIdField} + (if pairs.Some? then pairs.value.Keys - {ProtoKey} else {})
    ensures pairs.Some? ==> forall f :: f in pairs.value && f != ProtoKey ==> r.sessions[k][f] == pairs.value[f]
    ensures pairs.None? || UserIdField !in pairs.value ==> r.sessions[k][UserIdField] == u
  {
    Store(st.sessions[k := map[UserIdField := u] + (pairs.GetOr(map[]) - {ProtoKey})])
  }

  /** `getSession(k)`: `null` for an absent or expired key (an expired entry
      stays); otherwise the owner and the remaining fields, after deleting
      `userId` and `expirationTime` from the stored object itself. */
  function GetSession(st: Store, k: string, now: int): (r: Fetch)
    ensures r.data.Some? <==> k in st.sessions && !Expired(st.sessions[k], now)
    ensures r.data.None? ==> r.store == st
    ensures r.data.Some? ==>
              && r.data.value.sessionId == k
              && r.data.value.userId == Lookup(st.sessions[k], UserIdField)
              && UserIdField !in r.data.value.pairs && ExpirationField !in r.data.value.pairs
              && (forall f :: f in st.sessions[k] && f != UserIdField && f != ExpirationField
                    ==> f in r.data.value.pairs && r.data.value.pairs[f] == st.sessions[k][f])
              && r.data.value.pairs.Keys <= st.sessions[k].Keys
    ensures r.data.Some? ==> r.store.sessions == st.sessions[k := r.data.value.pairs]
  {
    if k !in st.sessions then Fetch(st, None)
    else
      var rec := st.sessions[k];
      if Expired(rec, now) then Fetch(st, None)
      else
        var stripped := rec - {UserIdField, ExpirationField};
        Fetch(Store(st.sessions[k := stripped]), Some(SessionData(k, Lookup(rec, UserIdField), stripped)))
  }

  /** `setExpirationTime(k, _, t)`: `expirationTime = now + t * 1000` with no
      check of the sign of `t`; throws when `k` is absent. */
  function SetExpirationTime(st: Store, k: string, t: int, now: int): (r: Result<Store, StoreError>)
    ensures r.Failure? <==> k !in st.sessions
    ensures r.Failure? ==> r.error == MissingSession
    ensures r.Success? ==>
              && r.value.sessions.Keys == st.sessions.Keys
              && r.value.sessions[k] == st.sessions[k][ExpirationField := Num(now + t * 1000)]
              && forall k' :: k' in st.sessions && k' != k ==> r.value.sessions[k'] == st.sessions[k']
  {
    if k !in st.sessions then Failure(MissingSession)
    else Success(Store(st.sessions[k := st.sessions[k][ExpirationField := Num(now + t * 1000)]]))
  }

  /** `getExpirationTime(k)`: the absolute `expirationTime` in milliseconds
      (`undefined` if never set); throws when `k` is absent. */
  function GetExpirationTime(st: Store, k: string): (r: Result<Option<Value>, StoreError>)
    ensures r.Failure? <==> k !in st.sessions
    ensures r.Success? ==> r.value == Lookup(st.sessions[k], ExpirationField)
  {
    if k !in st.sessions then Failure(MissingSession)
    else Success(Lookup(st.sessions[k], ExpirationField))
  }

  /** `deleteSession(k)`: `Map.delete`. */
  function DeleteSession(st: Store, k: string): (r: Store)
    ensures r.sessions.Keys == st.sessions.Keys - {k}
    ensures forall k' :: k' in r.sessions ==> r.sessions[k'] == st.sessions[k']
  {
    Store(st.sessions - {k})
  }

  /** Whether a stored object's `userId` is strictly equal to `u`. */
  predicate OwnedBy(rec: Record, u: Value) {
    UserIdField in rec && rec[UserIdField] == u
  }

  /** `deleteSessionsByUserId(u)`: a scan deleting every entry whose
      `userId === u`. */
  function DeleteSessionsByUserId(st: Store, u: Value): (r: Store)
    ensures forall k :: k in r.sessions ==> !OwnedBy(r.sessions[k], u)
    ensures forall k :: k in st.sessions && !OwnedBy(st.sessions[k], u)
              ==> k in r.sessions && r.sessions[k] == st.sessions[k]
    ensures r.sessions.Keys <= st.sessions.Keys
  {
    Store(map k | k in st.sessions && !OwnedBy(st.sessions[k], u) :: st.sessions[k])
  }

  /** `setPair(k, key, v)`: `data[key] = v`, an assignment on a plain
      object; throws when `k` is absent. */
  function SetPair(st: Store, k: string, key: string, v: Value): (r: Result<Store, StoreError>)
    ensures r.Failure? <==> k !in st.sessions
    ensures r.Success? ==>
              && r.value.sessions.Keys == st.sessions.Keys
              && (key != ProtoKey ==> r.value.sessions[k] == st.sessions[k][key := v])
              && (key == ProtoKey && key !in st.sessions[k] ==> r.value == st)
              && forall k' :: k' in st.sessions && k' != k ==> r.value.sessions[k'] == st.sessions[k']
  {
    if k !in st.sessions then Failure(MissingSession)
    else Success(Store(st.sessions[k := Assign(st.sessions[k], key, v)]))
  }

  /** `deletePair(k, key)`: `delete data[key]`; throws when `k` is absent. */
  function DeletePair(st: Store, k: string, key: string): (r: Result<Store, StoreError>)
    ensures r.Failure? <==> k !in st.sessions
    ensures r.Success? ==>
              && r.value.sessions.Keys == st.sessions.Keys
              && r.value.sessions[k] == st.sessions[k] - {key}
              && forall k' :: k' in st.sessions && k' != k ==> r.value.sessions[k'] == st.sessions[k']
  {
    if k !in st.sessions then Failure(MissingSession)
    else Success(Store(st.sessions[k := st.sessions[k] - {key}]))
  }

  /** One run of the interval callback: every expired entry is deleted. */
  function Sweep(st: Store, now: int): (r: Store)
    ensures forall k :: k in r.sessions <==> k in st.sessions && !Expired(st.sessions[k], now)
    ensures forall k :: k in r.sessions ==> r.sessions[k] == st.sessions[k]
  {
    Store(map k | k in st.sessions && !Expired(st.sessions[k], now) :: st.sessions[k])
  }

  // ---------------------------------------------------------------- properties

  /** The owner `addSession` records: a `userId` pair overrides the argument. */
  function Owner(u: Value, pairs: Option<Record>): Value {
    if pairs.Some? && UserIdField in pairs.value then pairs.value[UserIdField] else u
  }

  /** What was added is what is read back: the owner, and the pairs without
      the `userId` field and without a `__proto__` pair, which was never
      stored. */
  lemma AddThenGet(st: Store, k: string, u: Value, pairs: Option<Record>, now: int)
    requires pairs.Some? ==> ExpirationField !in pairs.value
    ensures GetSession(AddSession(st, k, u, pairs), k, now).data
            == Some(SessionData(k, Some(Owner(u, pairs)), pairs.GetOr(map[]) - {UserIdField, ProtoKey}))
  {
    var rec := AddSession(st, k, u, pairs).sessions[k];
    var d := GetSession(AddSession(st, k, u, pairs), k, now).data.value;
    assert d.pairs == pairs.GetOr(map[]) - {UserIdField, ProtoKey};
  }

  /** `addSession` followed by `setExpirationTime(k, _, t)`, as a login does:
      the owner and the pairs are read back while the deadline has not
      passed; an `expirationTime` pair gave way to the deadline and is
      stripped like it. */
  lemma AddTimedThenGet(st: Store, k: string, u: Value, pairs: Option<Record>, t: int, now: int, later: int)
    requires now + t * 1000 != 0 && later <= now + t * 1000
    ensures var st1 := SetExpirationTime(AddSession(st, k, u, pairs), k, t, now).value;
            GetSession(st1, k, later).data
            == Some(SessionData(k, Some(Owner(u, pairs)), pairs.GetOr(map[]) - {UserIdField, ProtoKey, ExpirationField}))
  {
    var m1 := AddSession(st, k, u, pairs);
    var m2 := SetExpirationTime(m1, k, t, now).value;
    ExpiryWindow(m1, k, t, now, later);
    var rec := m1.sessions[k];
    assert m2.sessions[k] == rec[ExpirationField := Num(now + t * 1000)];
    var d := GetSession(m2, k, later).data.value;
    assert d.pairs == pairs.GetOr(map[]) - {UserIdField, ProtoKey, ExpirationField};
  }

  /** A sweep never changes what `getSession` reports: the lazy check already
      hides every entry the sweep deletes. */
  lemma SweepInvisibleToFetch(st: Store, k: string, now: int)
    ensures GetSession(Sweep(st, now), k, now).data == GetSession(st, k, now).data
  {
  }

  /** `getSession` deletes `userId` from the stored object, so a second read
      of the same session reports no owner. */
  lemma SecondReadLosesOwner(st: Store, k: string, now: int, later: int)
    requires GetSession(st, k, now).data.Some?
    ensures var st1 := GetSession(st, k, now).store;
            GetSession(st1, k, later).data.Some? && GetSession(st1, k, later).data.value.userId == None
  {
  }

  /** Forced logout misses a session that has been read once: after
      `getSession`, its object no longer carries `userId`, so
      `deleteSessionsByUserId` keeps it and it is still served. */
  lemma ForcedLogoutMissesReadSession(st: Store, k: string, u: Value, now: int, later: int)
    requires GetSession(st, k, now).data.Some?
    ensures var st2 := DeleteSessionsByUserId(GetSession(st, k, now).store, u);
            k in st2.sessions && GetSession(st2, k, later).data.Some?
  {
  }

  /** Forced logout does reach every session whose object still names `u`. */
  lemma ForcedLogoutRemovesOwned(st: Store, k: string, u: Value, now: int)
    requires k in st.sessions && OwnedBy(st.sessions[k], u)
    ensures GetSession(DeleteSessionsByUserId(st, u), k, now).data.None?
  {
  }

  /** With `setExpirationTime(k, _, t)` at `now`, the session is served at
      `later` exactly until `now + t * 1000` has passed (a deadline of 0 is
      falsy and never expires). */
  lemma ExpiryWindow(st: Store, k: string, t: int, now: int, later: int)
    requires k in st.sessions
    ensures var st1 := SetExpirationTime(st, k, t, now).value;
            GetSession(st1, k, later).data.Some? <==> (now + t * 1000 == 0 || later <= now + t * 1000)
  {
  }

  /** How each kind of stored deadline is judged. A number expires once it is
      below the clock, except 0, which is falsy. `null` never expires. A
      deadline stored as the text of a number is compared as that number, and
      the text "0" is truthy, so it expires as soon as the clock is positive. */
  lemma ExpiredCases(rec: Record, now: int)
    requires ExpirationField in rec
    ensures rec[ExpirationField].Num? ==>
              (Expired(rec, now) <==> rec[ExpirationField].n != 0 && rec[ExpirationField].n < now)
    ensures rec[ExpirationField].Null? ==> !Expired(rec, now)
    ensures rec[ExpirationField].Bool? ==> (Expired(rec, now) <==> rec[ExpirationField].b && 1 < now)
    ensures forall n: int :: rec[ExpirationField] == Str(NumberText(n)) ==> (Expired(rec, now) <==> n < now)
  {
    forall n: int | rec[ExpirationField] == Str(NumberText(n))
      ensures Expired(rec, now) <==> n < now
    {
      NumberTextCompares(n, now);
    }
  }

  /** A deadline whose text is not a number is NaN, and NaN is below nothing:
      such a session never expires. */
  lemma NonNumericDeadlineStays(rec: Record, s: string, now: int)
    requires ExpirationField in rec && rec[ExpirationField] == Str(s)
    requires StringToNumber(s).None?
    ensures !Expired(rec, now)
  {
  }

  /** A negative time is not ignored: the deadline lies in the past and the
      session is gone at once. */
  lemma NegativeTtlExpiresAtOnce(st: Store, k: string, t: int, now: int)
    requires k in st.sessions && t < 0 && now + t * 1000 != 0
    ensures GetSession(SetExpirationTime(st, k, t, now).value, k, now).data.None?
  {
    ExpiryWindow(st, k, t, now, now);
  }

  /** A pair written with `setPair` is read back by `getSession`, unless it is
      one of the two bookkeeping fields `getSession` strips, or a `__proto__`
      the stored object did not already own. */
  lemma SetPairThenGet(st: Store, k: string, key: string, v: Value, now: int)
    requires k in st.sessions && !Expired(st.sessions[k], now)
    requires key != UserIdField && key != ExpirationField
    ensures var d := GetSession(SetPair(st, k, key, v).value, k, now).data;
            && d.Some?
            && (key in d.value.pairs <==> key != ProtoKey || key in st.sessions[k])
            && (key in d.value.pairs ==> d.value.pairs[key] == v)
  {
    var rec := Assign(st.sessions[k], key, v);
    assert ExpirationField in rec ==> rec[ExpirationField] == st.sessions[k][ExpirationField];
  }

  /** A pair removed with `deletePair` is gone from what `getSession` reads,
      and every other pair reads as before. */
  lemma DeletePairThenGet(st: Store, k: string, key: string, now: int)
    requires k in st.sessions && !Expired(st.sessions[k], now)
    requires key != ExpirationField
    ensures var before := GetSession(st, k, now).data;
            var after := GetSession(DeletePair(st, k, key).value, k, now).data;
            && before.Some? && after.Some?
            && after.value.pairs == before.value.pairs - {key}
  {
    var rec := st.sessions[k] - {key};
    assert ExpirationField in rec ==> rec[ExpirationField] == st.sessions[k][ExpirationField];
  }
}

=== FILE: middleware.dfy ===
/** The request middleware: it parses the `Cookie` header, verifies the signed
    `session` cookie, looks the session up under `hash(plain + secret)`, and on
    a hit re-issues the cookie and renews the expiry before building the
    request's `Session`. */
module Middleware {
  import opened Wrappers
  import opened Json
  import opened StoreTypes
  import opened Crypto
  import opened Sessions
  import Js
  import Cookie
  import Store
  import MemoryStore
  import Redis
  import RedisStore

  /** `expirationTime` as the application configures it: four days, written
      in milliseconds. */
  const ServerExpirationTime: int := (((60 * 1000) * 60) * 24) * 4

  /** Why the middleware's promise rejects: the cookie header did not parse,
      or a store call threw. */
  datatype RequestError = BadCookie(parseError: Cookie.ParseError) | StoreFailed(storeError: StoreError)

  /** What the middleware hands to the next handler. */
  datatype Handled = Handled(session: Session, res: Response, backend: Store.Backend)

  /** Whether the cookies carry a (truthy) `session` cookie that verifies to a
      (truthy) plaintext id. */
  predicate Verifies(cfg: Config, cookies: map<string, string>) {
    && CookieName in cookies && cookies[CookieName] != ""
    && Unsign(cfg.crypto, cookies[CookieName], cfg.secret).Some?
    && Unsign(cfg.crypto, cookies[CookieName], cfg.secret).value != ""
  }

  /** The storage key the cookies point to: none without a (truthy) `session`
      cookie or when it does not verify to a (truthy) plaintext id. */
  function Resolve(cfg: Config, cookies: map<string, string>): (r: Option<string>)
    ensures r.Some? <==> Verifies(cfg, cookies)
    ensures r.Some? ==>
              var plain := Unsign(cfg.crypto, cookies[CookieName], cfg.secret).value;
              && Sign(cfg.crypto, plain, cfg.secret) == cookies[CookieName]
              && r.value == StorageKey(cfg.crypto, plain, cfg.secret)
  {
    if CookieName !in cookies || cookies[CookieName] == "" then None
    else
      match Unsign(cfg.crypto, cookies[CookieName], cfg.secret)
      case None => None
      case Some(plain) => if plain == "" then None else Some(StorageKey(cfg.crypto, plain, cfg.secret))
  }

  /** `getSessionDataIfExists`: the store's answer for the resolved key, with
      the store as the lookup leaves it. */
  function GetSessionDataIfExists(cfg: Config, b: Store.Backend, cookies: map<string, string>, now: int)
    : (r: Result<(Store.Backend, Option<SessionData>), StoreError>)
    ensures Resolve(cfg, cookies).None? ==> r == Success((b, None))
    ensures r.Success? && r.value.1.Some? ==>
              Resolve(cfg, cookies).Some? && r.value.1.value.sessionId == Resolve(cfg, cookies).value
    ensures Resolve(cfg, cookies).Some? && b.Memory? ==>
              var k := Resolve(cfg, cookies).value;
              r.Success? && (r.value.1.Some? <==> k in b.mem.sessions && !MemoryStore.Expired(b.mem.sessions[k], now))
    ensures Resolve(cfg, cookies).Some? && b.RedisBacked? ==>
              var fields := Redis.HGetAll(Redis.Purge(b.db, now), Resolve(cfg, cookies).value);
              && (r.Failure? <==> fields != map[] && !RedisStore.AllParse(fields))
              && (r.Success? ==> (r.value.1.Some? <==> fields != map[]))
  {
    match Resolve(cfg, cookies)
    case None => Success((b, None))
    case Some(k) =>
      var e := Store.GetSession(b, k, now);
      if e.result.Failure? then Failure(e.result.error) else Success((e.backend, e.result.value))
  }

  /** The middleware once the header is parsed. On a hit the cookie is
      re-issued and the expiry renewed. With the in-memory store the session's
      pairs are the stored object itself, so they carry the `expirationTime`
      the renewal wrote into it. */
  function HandleCookies(cfg: Config, b: Store.Backend, cookies: map<string, string>, now: int): (r: Result<Handled, RequestError>)
    ensures r.Success? ==> (Exists(r.value.session) <==> r.value.res.cookies != [])
    ensures r.Success? && Exists(r.value.session) ==> r.value.session.sessionId == Resolve(cfg, cookies)
    ensures b.Memory? ==> r.Success? && r.value.backend.Memory? && r.value.backend.mem.sessions.Keys == b.mem.sessions.Keys
    ensures b.Memory? && r.Success? && Exists(r.value.session) ==>
              var k := r.value.session.sessionId.value;
              && k in r.value.backend.mem.sessions
              && r.value.session.pairs == Some(r.value.backend.mem.sessions[k])
              && MemoryStore.ExpirationField in r.value.session.pairs.value
              && r.value.session.pairs.value[MemoryStore.ExpirationField] == Num(now + cfg.expirationTime * 1000)
              && Store.GetExpirationTime(r.value.backend, k, now) == Success(Store.Deadline(Some(Num(now + cfg.expirationTime * 1000))))
  {
    match GetSessionDataIfExists(cfg, b, cookies, now)
    case Failure(e) => Failure(StoreFailed(e))
    case Success((b1, None)) => Success(Handled(Empty(), Response([]), b1))
    case Success((b1, Some(d))) =>
      var res := Response([SetCookie(CookieName, Sign(cfg.crypto, d.sessionId, cfg.secret), cfg.expirationTime, cfg.httpOnly)]);
      var e := Store.SetExpirationTime(b1, d.sessionId, d.userId, cfg.expirationTime, now);
      Store.MemoryRenewal(b1, d.sessionId, d.userId, cfg.expirationTime, now);
      if e.result.Failure? then Failure(StoreFailed(e.result.error))
      else
        var pairs :=
          if e.backend.Memory? && d.sessionId in e.backend.mem.sessions then e.backend.mem.sessions[d.sessionId]
          else d.pairs;
        Success(Handled(Session(Some(d.sessionId), d.userId, Some(pairs)), res, e.backend))
  }

  /** The middleware on the raw `Cookie` header (`None` when absent): a header
      that does not parse rejects with the parse error, and a request without
      one gets an empty session with the store untouched. */
  function Handle(cfg: Config, b: Store.Backend, header: Option<string>, decode: string -> Option<string>, now: int)
    : (r: Result<Handled, RequestError>)
    ensures (r.Failure? && r.error.BadCookie?) <==> Cookie.Parse(header, decode).Failure?
    ensures r.Failure? && r.error.BadCookie? ==> r.error.parseError == Cookie.Parse(header, decode).error
    ensures header.None? ==> r == Success(Handled(Empty(), Response([]), b))
  {
    match Cookie.Parse(header, decode)
    case Failure(e) => Failure(BadCookie(e))
    case Success(cookies) => HandleCookies(cfg, b, cookies, now)
  }

  // ---------------------------------------------------------------- properties

  /** A cookie issued by `init` points back to exactly the key `init` stored
      the session under. */
  lemma InitCookieResolves(cfg: Config, plain: string)
    requires Valid(cfg.crypto) && plain != ""
    ensures Resolve(cfg, map[CookieName := Sign(cfg.crypto, plain, cfg.secret)])
            == Some(StorageKey(cfg.crypto, plain, cfg.secret))
  {
    UnsignSign(cfg.crypto, plain, cfg.secret);
  }

  /** The cookie the middleware re-issues signs the storage key `k` itself, so
      the next request looks up `hash(k + secret)`: the session is found again
      only if that hash happens to be `k`. */
  lemma ReissuedCookieResolves(cfg: Config, k: string)
    requires Valid(cfg.crypto) && k != ""
    ensures Resolve(cfg, map[CookieName := Sign(cfg.crypto, k, cfg.secret)]) == Some(StorageKey(cfg.crypto, k, cfg.secret))
    ensures Resolve(cfg, map[CookieName := Sign(cfg.crypto, k, cfg.secret)]) == Some(k)
            <==> cfg.crypto.hash(k + cfg.secret) == k
  {
    UnsignSign(cfg.crypto, k, cfg.secret);
  }

  /** Without a `session` cookie the request gets an empty session, no cookie
      is issued and the store is not touched. */
  lemma NoCookieNoSession(cfg: Config, b: Store.Backend, cookies: map<string, string>, now: int)
    requires CookieName !in cookies
    ensures HandleCookies(cfg, b, cookies, now) == Success(Handled(Empty(), Response([]), b))
  {
  }

  /** A found session gets its cookie re-issued, and the client then holds
      the storage key as its plaintext id. */
  lemma FoundSessionReissuesKey(cfg: Config, b: Store.Backend, cookies: map<string, string>, now: int)
    requires Valid(cfg.crypto)
    requires HandleCookies(cfg, b, cookies, now).Success?
    requires Exists(HandleCookies(cfg, b, cookies, now).value.session)
    ensures var h := HandleCookies(cfg, b, cookies, now).value;
            && Resolve(cfg, cookies).Some?
            && h.session.sessionId == Resolve(cfg, cookies)
            && h.res.cookies == [SetCookie(CookieName, Sign(cfg.crypto, Resolve(cfg, cookies).value, cfg.secret), cfg.expirationTime, cfg.httpOnly)]
            && Unsign(cfg.crypto, h.res.cookies[0].value, cfg.secret) == Resolve(cfg, cookies)
  {
    UnsignSign(cfg.crypto, Resolve(cfg, cookies).value, cfg.secret);
  }

  /** With Redis and a positive expiration time, a hit renews the session:
      `TTL` reports the full time again, the session still reads the same,
      and the request's session is the data that was read. */
  lemma RedisHitRenews(cfg: Config, b: Store.Backend, cookies: map<string, string>, now: int)
    requires b.RedisBacked? && cfg.expirationTime > 0
    requires HandleCookies(cfg, b, cookies, now).Success?
    requires Exists(HandleCookies(cfg, b, cookies, now).value.session)
    ensures var h := HandleCookies(cfg, b, cookies, now).value;
            var k := h.session.sessionId.value;
            && Store.GetSession(b, k, now).result.Success?
            && Store.GetSession(b, k, now).result.value.Some?
            && h.session == FromData(Store.GetSession(b, k, now).result.value.value)
            && Store.GetSession(h.backend, k, now).result == Store.GetSession(b, k, now).result
            && Store.GetExpirationTime(h.backend, k, now) == Success(Store.Remaining(cfg.expirationTime))
  {
    var k := Resolve(cfg, cookies).value;
    var d := RedisStore.GetSession(b.db, k, now).value.value;
    assert Redis.HGetAll(Redis.Purge(b.db, now), k) != map[];
    RedisStore.SetExpirationTtl(b.db, k, d.userId, cfg.expirationTime, now);
    RedisStore.ExpirationKeepsRead(b.db, k, d.userId, cfg.expirationTime, now);
  }

  /** After a login with the in-memory store, the next request sending the
      issued cookie in its `Cookie` header finds the session: the header
      parses, the cookie verifies, and the key it names is the one `init`
      stored the owner under. */
  lemma LoginThenRequest(cfg: Config, plain: string, u: Value, now: int, later: int,
                         decode: string -> Option<string>)
    requires Valid(cfg.crypto) && plain != ""
    requires forall s :: decode(s) == Some(s)
    requires now + cfg.expirationTime * 1000 != 0 && later <= now + cfg.expirationTime * 1000
    requires var c := Sign(cfg.crypto, plain, cfg.secret);
             ';' !in c && '=' !in c && Js.Trim(c) == c
    ensures var login := Init(cfg, Empty(), Response([]), Store.Memory(MemoryStore.Empty()), plain, u, None, now);
            var r := Handle(cfg, login.backend, Some(CookieName + "=" + login.res.cookies[0].value), decode, later);
            && r.Success?
            && r.value.session.sessionId == Some(StorageKey(cfg.crypto, plain, cfg.secret))
            && r.value.session.userId == Some(u)
            && |r.value.res.cookies| == 1
  {
    var c := Sign(cfg.crypto, plain, cfg.secret);
    var b0 := Store.Memory(MemoryStore.Empty());
    var login := Init(cfg, Empty(), Response([]), b0, plain, u, None, now);
    assert login.res.cookies[0].value == c;
    assert Js.Trim(CookieName) == CookieName by {
      Js.TrimInert(CookieName);
    }
    Cookie.NamedCookie(CookieName, c, decode);
    var cookies := map[CookieName := c];
    assert Cookie.Parse(Some(CookieName + "=" + c), decode) == Success(cookies);
    InitCookieResolves(cfg, plain);
    InitThenRead(cfg, Empty(), Response([]), b0, plain, u, None, now, later);
  }

  // ---------------------------------------------------------------- a login, two requests

  /** The in-memory store only ever holds the keys sessions were added under. */
  lemma InitKeys(cfg: Config, res: Response, plain: string, u: Value, now: int)
    ensures var r := Init(cfg, Empty(), res, Store.Memory(MemoryStore.Empty()), plain, u, None, now);
            r.backend.Memory? && r.backend.mem.sessions.Keys == {StorageKey(cfg.crypto, plain, cfg.secret)}
  {
  }

  /** With the in-memory store, a cookie naming a live stored session yields
      that session: its key, and the owner `getSession` read from the stored
      object, which routes see as `req.session.userId`. */
  lemma MemoryHit(cfg: Config, b: Store.Backend, cookies: map<string, string>, now: int)
    requires b.Memory? && Resolve(cfg, cookies).Some?
    requires Store.GetSession(b, Resolve(cfg, cookies).value, now).result.value.Some?
    ensures HandleCookies(cfg, b, cookies, now).Success?
    ensures Exists(HandleCookies(cfg, b, cookies, now).value.session)
    ensures HandleCookies(cfg, b, cookies, now).value.session.sessionId == Resolve(cfg, cookies)
    ensures HandleCookies(cfg, b, cookies, now).value.session.userId
            == Store.GetSession(b, Resolve(cfg, cookies).value, now).result.value.value.userId
  {
  }

  /** With the in-memory store, a cookie naming a key the store does not hold
      yields an empty session and leaves the store alone. */
  lemma MemoryMiss(cfg: Config, b: Store.Backend, cookies: map<string, string>, now: int)
    requires b.Memory? && Resolve(cfg, cookies).Some? && Resolve(cfg, cookies).value !in b.mem.sessions
    ensures HandleCookies(cfg, b, cookies, now) == Success(Handled(Empty(), Response([]), b))
  {
  }

  /** After a login, the first request carrying the cookie finds the session,
      but the cookie it re-issues leads the following request nowhere: with
      the in-memory store, that request gets an empty session. This holds for
      any digest free of '.' and any hash that does not send the storage key,
      followed by the secret, back to the key itself. */
  lemma SessionLostAfterOneRequest(secret: string, crypto: Primitives, t: int, plain: string, u: Value,
                                   now: int, now2: int, now3: int)
    requires Valid(crypto) && plain != "" && now + t * 1000 != 0 && now2 <= now + t * 1000
    requires var key := StorageKey(crypto, plain, secret);
             key != "" && StorageKey(crypto, key, secret) != key
    ensures var cfg := Config(secret, true, t, crypto);
            var login := Init(cfg, Empty(), Response([]), Store.Memory(MemoryStore.Empty()), plain, u, None, now);
            var first := HandleCookies(cfg, login.backend, map[CookieName := login.res.cookies[0].value], now2);
            && first.Success? && Exists(first.value.session)
            && var second := HandleCookies(cfg, first.value.backend, map[CookieName := first.value.res.cookies[0].value], now3);
            && second.Success? && !Exists(second.value.session)
  {
    var cfg := Config(secret, true, t, crypto);
    var key := StorageKey(cfg.crypto, plain, secret);
    var login := Init(cfg, Empty(), Response([]), Store.Memory(MemoryStore.Empty()), plain, u, None, now);
    var cookies1 := map[CookieName := login.res.cookies[0].value];
    InitKeys(cfg, Response([]), plain, u, now);
    InitThenRead(cfg, Empty(), Response([]), Store.Memory(MemoryStore.Empty()), plain, u, None, now, now2);
    InitCookieResolves(cfg, plain);
    MemoryHit(cfg, login.backend, cookies1, now2);
    var first := HandleCookies(cfg, login.backend, cookies1, now2).value;
    FoundSessionReissuesKey(cfg, login.backend, cookies1, now2);
    var cookies2 := map[CookieName := first.res.cookies[0].value];
    ReissuedCookieResolves(cfg, key);
    assert first.backend.mem.sessions.Keys == {key};
    MemoryMiss(cfg, first.backend, cookies2, now3);
  }

  /** The expiration time is a cookie lifetime in milliseconds and a store
      lifetime in seconds: with the application's value, the cookie lives four
      days while an in-memory session is still served a thousand times as
      long after its creation. */
  lemma UnitMismatch(s: Session, res: Response, mem: Store.Backend, secret: string, crypto: Primitives,
                     plain: string, u: Value, now: int)
    requires mem.Memory? && !(s.sessionId.Some? && s.sessionId.value != "") && now >= 0
    ensures ServerExpirationTime == 4 * 24 * 60 * 60 * 1000
    ensures var cfg := Config(secret, true, ServerExpirationTime, crypto);
            var r := Init(cfg, s, res, mem, plain, u, None, now);
            && r.res.cookies[|r.res.cookies| - 1].maxAge == ServerExpirationTime
            && Store.GetSession(r.backend, StorageKey(crypto, plain, secret), now + 1000 * ServerExpirationTime).result.value.Some?
  {
    var cfg := Config(secret, true, ServerExpirationTime, crypto);
    InitThenRead(cfg, s, res, mem, plain, u, None, now, now + 1000 * ServerExpirationTime);
  }
}

=== FILE: proxy.dfy ===
/** The `Proxy` handler `req.session` is wrapped in: reads look in the pairs
    first and then at the session object, writes to a name the object does not
    own become pairs and are forwarded to the store, and deletes remove a pair.
    The `set` and `deleteProperty` traps are `async`, so they hand back a
    promise (always truthy) and what goes wrong inside them is a rejection
    nobody observes. */
module Proxy {
  import opened Wrappers
  import opened Json
  import opened Js
  import opened StoreTypes
  import opened Sessions
  import Store
  import MemoryStore

  /** The properties a `Session` object owns after its constructor ran. */
  const OwnFields: set<string> := {"res", "store", "config", "sessionId", "userId", "pairs"}

  /** The methods a `Session` inherits from its class. */
  const Methods: set<string> := {"constructor", "setPair", "deletePair", "exists", "init", "delete"}

  /** The name both traps call on the pairs object to test for an own pair. */
  const OwnCheck := "hasOwnProperty"

  /** Whether the pairs own a field named `hasOwnProperty`: it hides the
      inherited method, and as a pair value is never a function, every call
      `target.pairs.hasOwnProperty(...)` throws a TypeError. */
  predicate OwnCheckShadowed(s: Session) {
    s.pairs.Some? && OwnCheck in s.pairs.value
  }

  /** What a property read yields: a plain value, `undefined`, one of the
      objects and functions the session holds, by name, or a TypeError. */
  datatype Read = Val(v: Value) | Undefined | Internal(name: string) | Throws

  /** The `get` trap: an own pair of that name wins; otherwise the session's
      own field or method. Reading `pairs` when they are `null` yields `null`.
      Once the pairs own `hasOwnProperty`, every read throws. */
  function Get(s: Session, prop: string): (r: Read)
    ensures r.Throws? <==> OwnCheckShadowed(s)
    ensures !OwnCheckShadowed(s) && s.pairs.Some? && prop in s.pairs.value ==> r == Val(s.pairs.value[prop])
    ensures (s.pairs.None? || (OwnCheck !in s.pairs.value && prop !in s.pairs.value)) && prop !in OwnFields && prop !in Methods
            ==> r == Undefined
    ensures prop == "pairs" && s.pairs.None? ==> r == Val(Null)
    ensures r.Internal? ==> r.name == prop && (prop in Methods || prop in {"res", "store", "config"} || (prop == "pairs" && s.pairs.Some?))
  {
    if OwnCheckShadowed(s) then Throws
    else if s.pairs.Some? && prop in s.pairs.value then Val(s.pairs.value[prop])
    else if prop == "pairs" && s.pairs.None? then Val(Null)
    else if prop == "sessionId" then
      (match s.sessionId
       case None => Val(Null)
       case Some(id) => Val(Str(id)))
    else if prop == "userId" then
      (match s.userId
       case None => Undefined
       case Some(u) => Val(u))
    else if prop in OwnFields || prop in Methods then Internal(prop)
    else Undefined
  }

  /** Why a trap's promise rejects: `deleteProperty` read `hasOwnProperty` of
      `null` pairs, or called a `hasOwnProperty` pair (both a TypeError), or
      the store call threw. */
  datatype TrapError = NullPairs | OwnCheckNotCallable | StoreFailed(error: StoreError)

  /** What a trap leaves behind. */
  datatype TrapOutcome = TrapOutcome(session: Session, backend: Store.Backend, status: Result<(), TrapError>)

  /** The values a `set` of an own field can be given in this model: the
      session object's own fields keep their modelled types. */
  predicate Assignable(prop: string, v: Value) {
    && prop !in {"res", "store", "config"}
    && (prop == "sessionId" ==> v.Null? || v.Str?)
    && (prop == "pairs" ==> v.Null?)
  }

  /** The `set` trap: an own field is assigned in place; any other name becomes
      a pair, assigned on the local pairs object (so `__proto__` creates no
      pair there, `Js.Assign`) and then written through `setPair`; with `null`
      pairs the write is dropped. */
  function Set(s: Session, b: Store.Backend, prop: string, v: Value, now: int): (r: TrapOutcome)
    requires prop in OwnFields ==> Assignable(prop, v)
    ensures prop !in OwnFields && s.pairs.None? ==> r == TrapOutcome(s, b, Success(()))
    ensures prop in OwnFields ==> r.backend == b && r.status.Success?
    ensures prop == "sessionId" ==> r.session == s.(sessionId := if v.Str? then Some(v.s) else None)
    ensures prop == "userId" ==> r.session == s.(userId := Some(v))
    ensures prop == "pairs" ==> r.session == s.(pairs := None)
    ensures prop !in OwnFields && s.pairs.Some? ==>
              && (prop != ProtoKey ==> r.session == s.(pairs := Some(s.pairs.value[prop := v])))
              && (prop == ProtoKey && prop !in s.pairs.value ==> r.session == s)
              && r.backend == Sessions.SetPair(s, b, prop, v, now).backend
              && (r.status.Success? <==> Sessions.SetPair(s, b, prop, v, now).result.Success?)
              && (r.status.Failure? ==> r.status.error == StoreFailed(Sessions.SetPair(s, b, prop, v, now).result.error))
  {
    if prop in OwnFields then
      var s1 :=
        if prop == "sessionId" then s.(sessionId := if v.Str? then Some(v.s) else None)
        else if prop == "userId" then s.(userId := Some(v))
        else s.(pairs := None);
      TrapOutcome(s1, b, Success(()))
    else if s.pairs.None? then TrapOutcome(s, b, Success(()))
    else
      var s1 := s.(pairs := Some(Assign(s.pairs.value, prop, v)));
      var e := Sessions.SetPair(s, b, prop, v, now);
      TrapOutcome(s1, e.backend, if e.result.Success? then Success(()) else Failure(StoreFailed(e.result.error)))
  }

  /** The `deleteProperty` trap: a pair of that name is removed locally and
      through `deletePair`; any other name changes nothing. The own-pair test
      throws on `null` pairs and on pairs owning `hasOwnProperty`. */
  function DeleteProperty(s: Session, b: Store.Backend, key: string, now: int): (r: TrapOutcome)
    ensures s.pairs.None? ==> r == TrapOutcome(s, b, Failure(NullPairs))
    ensures OwnCheckShadowed(s) ==> r == TrapOutcome(s, b, Failure(OwnCheckNotCallable))
    ensures s.pairs.Some? && !OwnCheckShadowed(s) && key !in s.pairs.value ==> r == TrapOutcome(s, b, Success(()))
    ensures s.pairs.Some? && !OwnCheckShadowed(s) && key in s.pairs.value ==>
              && r.session == s.(pairs := Some(s.pairs.value - {key}))
              && r.backend == Sessions.DeletePair(s, b, key, now).backend
              && (r.status.Success? <==> Sessions.DeletePair(s, b, key, now).result.Success?)
              && (r.status.Failure? ==> r.status.error == StoreFailed(Sessions.DeletePair(s, b, key, now).result.error))
  {
    if s.pairs.None? then TrapOutcome(s, b, Failure(NullPairs))
    else if OwnCheckShadowed(s) then TrapOutcome(s, b, Failure(OwnCheckNotCallable))
    else if key !in s.pairs.value then TrapOutcome(s, b, Success(()))
    else
      var s1 := s.(pairs := Some(s.pairs.value - {key}));
      var e := Sessions.DeletePair(s, b, key, now);
      TrapOutcome(s1, e.backend, if e.result.Success? then Success(()) else Failure(StoreFailed(e.result.error)))
  }

  // ---------------------------------------------------------------- properties

  /** A pair written through the proxy is read back through it, unless it is
      a `__proto__` the pairs did not already own, which reads as before, or
      the pairs now own `hasOwnProperty`, which makes the read throw. */
  lemma SetThenGet(s: Session, b: Store.Backend, prop: string, v: Value, now: int)
    requires prop !in OwnFields && s.pairs.Some?
    ensures !OwnCheckShadowed(s) && prop != OwnCheck && (prop != ProtoKey || prop in s.pairs.value)
            ==> Get(Set(s, b, prop, v, now).session, prop) == Val(v)
    ensures OwnCheckShadowed(s) || prop == OwnCheck ==> Get(Set(s, b, prop, v, now).session, prop) == Throws
    ensures prop == ProtoKey && prop !in s.pairs.value ==> Get(Set(s, b, prop, v, now).session, prop) == Get(s, prop)
  {
  }

  /** `req.session.hasOwnProperty = v` on a session with pairs stores the
      pair, locally and in the store; from then on every read through the
      proxy throws and every delete rejects. */
  lemma SetOwnCheckBreaksProxy(s: Session, b: Store.Backend, v: Value, now: int, prop: string, key: string)
    requires s.pairs.Some?
    ensures var r := Set(s, b, OwnCheck, v, now);
            && r.backend == Sessions.SetPair(s, b, OwnCheck, v, now).backend
            && Get(r.session, prop) == Throws
            && DeleteProperty(r.session, r.backend, key, now) == TrapOutcome(r.session, r.backend, Failure(OwnCheckNotCallable))
  {
  }

  /** An own field written through the proxy is read back through it, unless
      a pair of the same name hides it; `pairs` set to `null` reads `null`. */
  lemma SetOwnThenGet(s: Session, b: Store.Backend, prop: string, v: Value, now: int)
    requires prop in {"sessionId", "userId", "pairs"} && Assignable(prop, v)
    requires s.pairs.None? || prop !in s.pairs.value
    ensures !OwnCheckShadowed(s) || prop == "pairs" ==> Get(Set(s, b, prop, v, now).session, prop) == Val(v)
    ensures OwnCheckShadowed(s) && prop != "pairs" ==> Get(Set(s, b, prop, v, now).session, prop) == Throws
  {
    var s1 := Set(s, b, prop, v, now).session;
    if prop == "sessionId" {
      assert s1.pairs == s.pairs;
    }
  }

  /** Deleting a pair through the proxy uncovers what it hid; with a
      `hasOwnProperty` pair the delete rejects and the read still throws. */
  lemma DeleteThenGet(s: Session, b: Store.Backend, key: string, now: int)
    requires s.pairs.Some? && key in s.pairs.value
    ensures !OwnCheckShadowed(s) ==> Get(DeleteProperty(s, b, key, now).session, key) == Get(s.(pairs := Some(map[])), key)
    ensures OwnCheckShadowed(s) ==> Get(DeleteProperty(s, b, key, now).session, key) == Throws
  {
  }

  /** With the in-memory store, a pair set through the proxy on a stored
      session reaches the stored object. */
  lemma SetReachesMemoryStore(s: Session, mem: MemoryStore.Store, prop: string, v: Value, now: int)
    requires prop !in OwnFields && s.pairs.Some? && s.sessionId.Some?
    requires s.sessionId.value in mem.sessions
    ensures var r := Set(s, Store.Memory(mem), prop, v, now);
            && r.status.Success?
            && r.backend.Memory?
            && (prop != ProtoKey ==> r.backend.mem.sessions[s.sessionId.value] == mem.sessions[s.sessionId.value][prop := v])
            && (prop == ProtoKey && prop !in mem.sessions[s.sessionId.value] ==> r.backend.mem == mem)
  {
  }

  /** With the in-memory store, a pair deleted through the proxy on a stored
      session is gone from the stored object, which keeps every other field. */
  lemma DeleteReachesMemoryStore(s: Session, mem: MemoryStore.Store, key: string, now: int)
    requires s.pairs.Some? && key in s.pairs.value && s.sessionId.Some?
    requires s.sessionId.value in mem.sessions
    ensures var r := DeleteProperty(s, Store.Memory(mem), key, now);
            && (!OwnCheckShadowed(s) ==>
                  && r.status.Success?
                  && r.backend.Memory?
                  && r.backend.mem.sessions[s.sessionId.value] == mem.sessions[s.sessionId.value] - {key})
            && (OwnCheckShadowed(s) ==> r.status == Failure(OwnCheckNotCallable) && r.backend == Store.Memory(mem))
  {
  }
}

=== FILE: redis.dfy ===
/** The slice of Redis the Redis-backed store talks to: hashes, sorted sets and
    key expiry, one key space, deadlines in milliseconds. Each command is
    modelled with the effect Redis documents for it: a hash or sorted set
    left empty is deleted, `EXPIRE` with a non-positive time deletes the key,
    and a key whose deadline has passed is never seen again. */
module Redis {
  import opened Wrappers

  datatype Db = Db(
    hashes: map<string, map<string, string>>,
    zsets: map<string, map<string, int>>,
    expiry: map<string, int>)

  function Empty(): Db {
    Db(map[], map[], map[])
  }

  predicate Exists(db: Db, key: string) {
    key in db.hashes || key in db.zsets
  }

  /** A key is expired once the clock has passed its deadline. */
  predicate Expired(db: Db, key: string, now: int) {
    key in db.expiry && db.expiry[key] < now
  }

  /** The database as every command sees it at `now`: expired keys are gone. */
  function Purge(db: Db, now: int): (r: Db)
    ensures forall k :: k in r.hashes <==> k in db.hashes && !Expired(db, k, now)
    ensures forall k :: k in r.zsets <==> k in db.zsets && !Expired(db, k, now)
    ensures forall k :: k in r.expiry <==> k in db.expiry && !Expired(db, k, now)
    ensures forall k :: k in r.hashes ==> r.hashes[k] == db.hashes[k]
    ensures forall k :: k in r.zsets ==> r.zsets[k] == db.zsets[k]
    ensures forall k :: k in r.expiry ==> r.expiry[k] == db.expiry[k]
  {
    Db(map k | k in db.hashes && !Expired(db, k, now) :: db.hashes[k],
       map k | k in db.zsets && !Expired(db, k, now) :: db.zsets[k],
       map k | k in db.expiry && !Expired(db, k, now) :: db.expiry[k])
  }

  // ---------------------------------------------------------------- reads

  /** `HGETALL key`: the fields, empty for a missing key. */
  function HGetAll(db: Db, key: string): map<string, string> {
    if key in db.hashes then db.hashes[key] else map[]
  }

  /** `HGET key field`: `None` for nil. */
  function HGet(db: Db, key: string, field: string): Option<string> {
    if key in db.hashes && field in db.hashes[key] then Some(db.hashes[key][field]) else None
  }

  /** `ZRANGE key 0 -1`, as the set of members (the callers ignore order). */
  function ZRange(db: Db, key: string): set<string> {
    if key in db.zsets then db.zsets[key].Keys else {}
  }

  /** `TTL key`: -2 for a missing key, -1 for a key without deadline,
      otherwise the remaining seconds, rounded to the nearest. */
  function Ttl(db: Db, key: string, now: int): int {
    if !Exists(db, key) then -2
    else if key !in db.expiry then -1
    else (db.expiry[key] - now + 500) / 1000
  }

  // ---------------------------------------------------------------- writes

  /** Removes a key of any type, with its deadline. */
  function DelKey(db: Db, key: string): (r: Db)
    ensures !Exists(r, key) && key !in r.expiry
  {
    Db(db.hashes - {key}, db.zsets - {key}, db.expiry - {key})
  }

  /** `DEL keys...`. */
  function Del(db: Db, keys: set<string>): (r: Db)
    ensures forall k :: k in keys ==> !Exists(r, k) && k !in r.expiry
    ensures forall k :: k !in keys && k in db.hashes ==> k in r.hashes && r.hashes[k] == db.hashes[k]
    ensures forall k :: k !in keys && k in db.zsets ==> k in r.zsets && r.zsets[k] == db.zsets[k]
    ensures forall k :: k !in keys && k in db.expiry ==> k in r.expiry && r.expiry[k] == db.expiry[k]
    ensures r.hashes.Keys <= db.hashes.Keys && r.zsets.Keys <= db.zsets.Keys
  {
    Db(db.hashes - keys, db.zsets - keys, db.expiry - keys)
  }

  /** `HSET key f1 v1 f2 v2 ...`: fields merged into the hash, later
      arguments winning; the deadline is kept. */
  function HSet(db: Db, key: string, fields: map<string, string>): (r: Db)
    ensures key in r.hashes && r.hashes[key] == HGetAll(db, key) + fields
    ensures forall k :: k != key && k in db.hashes ==> k in r.hashes && r.hashes[k] == db.hashes[k]
    ensures r.hashes.Keys == db.hashes.Keys + {key}
    ensures r.zsets == db.zsets && r.expiry == db.expiry
  {
    db.(hashes := db.hashes[key := HGetAll(db, key) + fields])
  }

  /** `HDEL key field`; the hash is deleted when its last field goes. */
  function HDel(db: Db, key: string, field: string): (r: Db)
    ensures field !in HGetAll(r, key)
    ensures forall k :: k != key && k in db.hashes ==> k in r.hashes && r.hashes[k] == db.hashes[k]
    ensures r.zsets.Keys <= db.zsets.Keys
  {
    if key !in db.hashes then db
    else
      var h := db.hashes[key] - {field};
      if h == map[] then db.(hashes := db.hashes - {key}, expiry := db.expiry - {key})
      else db.(hashes := db.hashes[key := h])
  }

  /** `ZADD key score member`: adds or re-scores; the deadline is kept. */
  function ZAdd(db: Db, key: string, score: int, member: string): (r: Db)
    ensures key in r.zsets && member in r.zsets[key] && r.zsets[key][member] == score
    ensures forall m :: m != member && m in ZRange(db, key) ==> m in r.zsets[key] && r.zsets[key][m] == db.zsets[key][m]
    ensures r.zsets[key].Keys == ZRange(db, key) + {member}
    ensures forall k :: k != key && k in db.zsets ==> k in r.zsets && r.zsets[k] == db.zsets[k]
    ensures r.hashes == db.hashes && r.expiry == db.expiry
  {
    var z := if key in db.zsets then db.zsets[key] else map[];
    db.(zsets := db.zsets[key := z[member := score]])
  }

  /** `ZREMRANGEBYSCORE key -inf max`; the set is deleted when it empties. */
  function ZRemRangeByScore(db: Db, key: string, max: int): (r: Db)
    ensures forall m :: m in ZRange(r, key) <==> m in ZRange(db, key) && db.zsets[key][m] > max
    ensures forall m :: m in ZRange(r, key) ==> r.zsets[key][m] == db.zsets[key][m]
    ensures forall k :: k != key && k in db.zsets ==> k in r.zsets && r.zsets[k] == db.zsets[k]
    ensures r.hashes == db.hashes
    ensures ZRange(r, key) != {} ==> r.expiry == db.expiry
  {
    if key !in db.zsets then db
    else
      var z := map m | m in db.zsets[key] && db.zsets[key][m] > max :: db.zsets[key][m];
      assert forall m :: m in db.zsets[key] && db.zsets[key][m] > max ==> m in z;
      if z == map[] then db.(zsets := db.zsets - {key}, expiry := db.expiry - {key})
      else db.(zsets := db.zsets[key := z])
  }

  /** `EXPIRE key seconds`: no effect on a missing key; a non-positive time
      deletes the key; otherwise the deadline becomes `now + seconds * 1000`. */
  function Expire(db: Db, key: string, seconds: int, now: int): (r: Db)
    ensures !Exists(db, key) ==> r == db
    ensures Exists(db, key) && seconds <= 0 ==> !Exists(r, key)
    ensures Exists(db, key) && seconds > 0 ==>
              r.hashes == db.hashes && r.zsets == db.zsets && r.expiry == db.expiry[key := now + seconds * 1000]
    ensures forall k :: k != key && k in db.hashes ==> k in r.hashes && r.hashes[k] == db.hashes[k]
    ensures forall k :: k != key && k in db.zsets ==> k in r.zsets && r.zsets[k] == db.zsets[k]
  {
    if !Exists(db, key) then db
    else if seconds <= 0 then DelKey(db, key)
    else db.(expiry := db.expiry[key := now + seconds * 1000])
  }

  // ---------------------------------------------------------------- pipelines

  datatype Command =
    | HSetCmd(key: string, fields: map<string, string>)
    | ZAddCmd(key: string, score: int, member: string)
    | ExpireCmd(key: string, seconds: int)
    | ZRemRangeByScoreCmd(key: string, max: int)

  function Apply(db: Db, cmd: Command, now: int): Db {
    match cmd
    case HSetCmd(key, fields) => HSet(db, key, fields)
    case ZAddCmd(key, score, member) => ZAdd(db, key, score, member)
    case ExpireCmd(key, seconds) => Expire(db, key, seconds, now)
    case ZRemRangeByScoreCmd(key, max) => ZRemRangeByScore(db, key, max)
  }

  /** Command `i` of a pipeline: no effect when the server rejects it. */
  function Step(db: Db, cmd: Command, i: nat, now: int, failing: set<nat>): Db {
    if i in failing then db else Apply(db, cmd, now)
  }

  /** A pipeline (not MULTI/EXEC): the commands run one after another, a
      command the server rejects (its index in `failing`) has no effect, and
      the others still run. */
  function RunPipeline(db: Db, cmds: seq<Command>, now: int, failing: set<nat>): Db
    decreases |cmds|
  {
    if cmds == [] then db
    else Step(RunPipeline(db, cmds[..|cmds| - 1], now, failing), cmds[|cmds| - 1], |cmds| - 1, now, failing)
  }

  /** Appending a command appends one step. */
  lemma RunPipelineSnoc(db: Db, cmds: seq<Command>, c: Command, now: int, failing: set<nat>)
    ensures RunPipeline(db, cmds + [c], now, failing) == Step(RunPipeline(db, cmds, now, failing), c, |cmds|, now, failing)
  {
    assert (cmds + [c])[..|cmds|] == cmds;
  }

  lemma RunPipelineTwo(db: Db, a: Command, b: Command, now: int, failing: set<nat>)
    ensures RunPipeline(db, [a, b], now, failing)
            == Step(Step(db, a, 0, now, failing), b, 1, now, failing)
  {
    RunPipelineSnoc(db, [], a, now, failing);
    assert [] + [a] == [a];
    RunPipelineSnoc(db, [a], b, now, failing);
    assert [a] + [b] == [a, b];
  }

  lemma RunPipelineFour(db: Db, a: Command, b: Command, c: Command, d: Command, now: int, failing: set<nat>)
    ensures RunPipeline(db, [a, b, c, d], now, failing)
            == Step(Step(Step(Step(db, a, 0, now, failing), b, 1, now, failing), c, 2, now, failing), d, 3, now, failing)
  {
    RunPipelineTwo(db, a, b, now, failing);
    RunPipelineSnoc(db, [a, b], c, now, failing);
    assert [a, b] + [c] == [a, b, c];
    RunPipelineSnoc(db, [a, b, c], d, now, failing);
    assert [a, b, c] + [d] == [a, b, c, d];
  }

  /** The first of the first `n` commands that failed, if any. */
  function FirstFailure(n: nat, failing: set<nat>): (r: Option<nat>)
    ensures r.Some? ==> r.value < n && r.value in failing && forall j :: 0 <= j < r.value ==> j !in failing
    ensures r.None? ==> forall j :: 0 <= j < n ==> j !in failing
  {
    if n == 0 then None
    else
      match FirstFailure(n - 1, failing)
      case Some(i) => Some(i)
      case None => if n - 1 in failing then Some(n - 1) else None
  }
}

=== FILE: redis_store.dfy ===
/** `RedisStore`: a session is a Redis hash under its storage key, holding the
    owner's id under `user_id` and every pair as a field; the sorted set named
    after the owner's id indexes the owner's sessions, scored by the time they
    were last touched. Every operation reads the database as it is at `now`
    (`Date.now()`, one value per call), and the pipelines of `addSession` and
    `setExpirationTime` may have failing sub-commands, given as `failing`. */
module RedisStore {
  import opened Wrappers
  import opened Json
  import opened StoreTypes
  import opened Redis
  import Js

  const UserIdField := "user_id"

  /** The database after an operation, and whether the operation threw. */
  datatype Outcome = Outcome(db: Db, status: Result<(), StoreError>)

  /** The text the client sends for a value passed as an argument: `String(v)`,
      except that `null` goes out as the empty text. */
  function ToArg(v: Value): string {
    if v.Null? then "" else RawForm(v)
  }

  /** The same for a user id that may be `undefined`, which also goes out as
      the empty text. */
  function Arg(u: Option<Value>): string {
    match u
    case None => ""
    case Some(v) => ToArg(v)
  }

  /** The pairs as `addSession` writes them: each value `JSON.stringify`-ed. */
  function EncodePairs(pairs: map<string, Value>): (r: map<string, string>)
    ensures r.Keys == pairs.Keys
    ensures forall f :: f in pairs ==> Parse(r[f]) == Some(pairs[f])
  {
    forall f | f in pairs ensures Parse(Stringify(pairs[f])) == Some(pairs[f]) {
      ParseStringify(pairs[f]);
    }
    map f | f in pairs :: Stringify(pairs[f])
  }

  /** What `pipeline.exec()` makes the caller throw: the error of the first
      failed sub-command of the `n` sent. */
  function Report(n: nat, failing: set<nat>): (r: Result<(), StoreError>)
    ensures r.Success? <==> forall i :: 0 <= i < n ==> i !in failing
    ensures r.Failure? ==> r.error.CommandFailed? && r.error.index < n && r.error.index in failing
  {
    match FirstFailure(n, failing)
    case None => Success(())
    case Some(i) => Failure(CommandFailed(i))
  }

  /** The fields `addSession` writes: the raw owner id, then the encoded
      pairs, so a pair named `user_id` overrides the owner. */
  function SessionFields(u: Value, pairs: Option<map<string, Value>>): map<string, string> {
    map[UserIdField := ToArg(u)] + EncodePairs(pairs.GetOr(map[]))
  }

  /** `addSession(k, u, pairs)`: one pipeline of `HSET k ...fields` and
      `ZADD u now k`. */
  function AddSession(db: Db, k: string, u: Value, pairs: Option<map<string, Value>>, now: int, failing: set<nat>): (r: Outcome)
    ensures r.status.Success? <==> 0 !in failing && 1 !in failing
    ensures 0 !in failing ==> k in r.db.hashes && r.db.hashes[k] == HGetAll(Purge(db, now), k) + SessionFields(u, pairs)
    ensures 0 in failing ==> HGetAll(r.db, k) == HGetAll(Purge(db, now), k)
    ensures 1 !in failing ==> k in ZRange(r.db, ToArg(u)) && r.db.zsets[ToArg(u)][k] == now
    ensures r.db.expiry == Purge(db, now).expiry
  {
    var hset := HSetCmd(k, SessionFields(u, pairs));
    var zadd := ZAddCmd(ToArg(u), now, k);
    RunPipelineTwo(Purge(db, now), hset, zadd, now, failing);
    Outcome(RunPipeline(Purge(db, now), [hset, zadd], now, failing), Report(2, failing))
  }

  /** Whether every stored field is JSON `JSON.parse` accepts. */
  predicate AllParse(fields: map<string, string>) {
    forall f :: f in fields ==> Parse(fields[f]).Some?
  }

  /** The loop `pairs[key] = JSON.parse(data[key])` into a fresh `{}`: every
      field parsed, except that a `__proto__` field creates no pair
      (`Js.Assign`). */
  function Decode(fields: map<string, string>): (r: map<string, Value>)
    requires AllParse(fields)
    ensures r.Keys == fields.Keys - {Js.ProtoKey}
    ensures forall f :: f in r ==> Parse(fields[f]) == Some(r[f])
  {
    map f | f in fields && f != Js.ProtoKey :: Parse(fields[f]).value
  }

  /** `getSession(k)`: `null` for no fields, a thrown `SyntaxError` when a field
      is not JSON, otherwise every field parsed, with `user_id` moved out as
      the owner. */
  function GetSession(db: Db, k: string, now: int): (r: Result<Option<SessionData>, StoreError>)
    ensures r == Success(None) <==> HGetAll(Purge(db, now), k) == map[]
    ensures r.Failure? <==> HGetAll(Purge(db, now), k) != map[] && !AllParse(HGetAll(Purge(db, now), k))
    ensures r.Failure? ==> r.error == MalformedField
    ensures r.Success? && r.value.Some? ==>
              var fields := HGetAll(Purge(db, now), k);
              var d := r.value.value;
              && d.sessionId == k
              && (d.userId.Some? <==> UserIdField in fields)
              && (d.userId.Some? ==> Parse(fields[UserIdField]) == d.userId)
              && d.pairs.Keys == fields.Keys - {UserIdField, Js.ProtoKey}
              && forall f :: f in d.pairs ==> Parse(fields[f]) == Some(d.pairs[f])
  {
    var fields := HGetAll(Purge(db, now), k);
    if fields == map[] then Success(None)
    else if !AllParse(fields) then Failure(MalformedField)
    else
      var parsed := Decode(fields);
      Success(Some(SessionData(k, Lookup(parsed, UserIdField), parsed - {UserIdField})))
  }

  /** The four sub-commands `setExpirationTime` pipelines. */
  function ExpirationCommands(k: string, owner: string, t: int, now: int): seq<Command> {
    [ExpireCmd(k, t), ExpireCmd(owner, t), ZAddCmd(owner, now, k), ZRemRangeByScoreCmd(owner, now - t * 1000)]
  }

  /** `setExpirationTime(k, u, t)`: nothing for a negative `t`; otherwise
      `EXPIRE k t`, `EXPIRE u t`, `ZADD u now k` and the removal from the index
      of every session touched before `now - t * 1000`. */
  function SetExpirationTime(db: Db, k: string, u: Option<Value>, t: int, now: int, failing: set<nat>): (r: Outcome)
    ensures t < 0 ==> r == Outcome(db, Success(()))
    ensures t >= 0 ==> (r.status.Success? <==> forall i :: 0 <= i < 4 ==> i !in failing)
  {
    if t < 0 then Outcome(db, Success(()))
    else Outcome(RunPipeline(Purge(db, now), ExpirationCommands(k, Arg(u), t, now), now, failing), Report(4, failing))
  }

  /** `getExpirationTime(k)`: `TTL k`, the remaining seconds. */
  function GetExpirationTime(db: Db, k: string, now: int): (r: int)
    ensures r == -2 <==> !Exists(Purge(db, now), k)
    ensures r == -1 <==> Exists(Purge(db, now), k) && k !in Purge(db, now).expiry
    ensures r >= -2
  {
    Ttl(Purge(db, now), k, now)
  }

  /** `deleteSessionsByUserId(u)`: nothing when the index of `u` is empty,
      otherwise `DEL` of every indexed session and of the index itself. */
  function DeleteSessionsByUserId(db: Db, u: Value, now: int): (r: Db)
    ensures ZRange(Purge(db, now), ToArg(u)) == {} ==> r == db
    ensures ZRange(Purge(db, now), ToArg(u)) != {} ==>
              && !Exists(r, ToArg(u))
              && (forall m :: m in ZRange(Purge(db, now), ToArg(u)) ==> !Exists(r, m))
              && (forall k :: k in Purge(db, now).hashes && k !in ZRange(Purge(db, now), ToArg(u)) && k != ToArg(u)
                    ==> k in r.hashes && r.hashes[k] == db.hashes[k])
              && (forall k :: k in r.hashes ==> k in Purge(db, now).hashes)
  {
    var live := Purge(db, now);
    var members := ZRange(live, ToArg(u));
    if members == {} then db else Del(live, members + {ToArg(u)})
  }

  /** `deleteSession(k)`: reads the owner's id from `user_id`; when it is
      missing or empty nothing happens, otherwise every session of that owner
      is deleted. */
  function DeleteSession(db: Db, k: string, now: int): (r: Db)
    ensures var o := HGet(Purge(db, now), k, UserIdField);
            o.None? || o.value == "" ==> r == db
    ensures var o := HGet(Purge(db, now), k, UserIdField);
            o.Some? && o.value != "" ==> r == DeleteSessionsByUserId(db, Str(o.value), now)
  {
    var owner := HGet(Purge(db, now), k, UserIdField);
    if owner.None? || owner.value == "" then db else DeleteSessionsByUserId(db, Str(owner.value), now)
  }

  /** `setPair(k, key, v)`: `HSET k key v` with `v` sent as is, not as JSON. */
  function SetPair(db: Db, k: string, key: string, v: Value, now: int): (r: Db)
    ensures k in r.hashes && r.hashes[k] == HGetAll(Purge(db, now), k)[key := ToArg(v)]
    ensures r.expiry == Purge(db, now).expiry
  {
    var live := Purge(db, now);
    assert HGetAll(live, k) + map[key := ToArg(v)] == HGetAll(live, k)[key := ToArg(v)];
    HSet(live, k, map[key := ToArg(v)])
  }

  /** `deletePair(k, key)`: `HDEL k key`. */
  function DeletePair(db: Db, k: string, key: string, now: int): (r: Db)
    ensures HGetAll(r, k) == HGetAll(Purge(db, now), k) - {key}
  {
    HDel(Purge(db, now), k, key)
  }

  // ---------------------------------------------------------------- properties

  /** The owner `addSession` records: a `user_id` pair overrides `u`. */
  function Owner(u: Value, pairs: Option<map<string, Value>>): Value {
    if pairs.Some? && UserIdField in pairs.value then pairs.value[UserIdField] else u
  }

  /** A value sent as an argument and read with `JSON.parse` comes back
      unchanged exactly when it is neither a string nor `null`: a string's
      plain text is never its own JSON literal, and the empty text `null` is
      sent as is no JSON at all. */
  lemma ArgRoundTripIff(v: Value)
    ensures Parse(ToArg(v)) == Some(v) <==> !v.Str? && !v.Null?
  {
    RawFormRoundTripIff(v);
  }

  /** Reading at the same instant sees everything a write left behind: the
      write started from a purged database and added no past deadline. */
  lemma PurgeAfterWrite(db: Db, k: string, now: int)
    requires k in db.hashes && (k in db.expiry ==> db.expiry[k] >= now)
    ensures HGetAll(Purge(db, now), k) == db.hashes[k]
  {
  }

  lemma DecodeSessionFields(u: Value, pairs: Option<map<string, Value>>)
    requires !u.Str? && !u.Null?
    ensures AllParse(SessionFields(u, pairs))
    ensures Decode(SessionFields(u, pairs)) == map[UserIdField := Owner(u, pairs)] + (pairs.GetOr(map[]) - {Js.ProtoKey})
  {
    var fields := SessionFields(u, pairs);
    ArgRoundTripIff(u);
    var enc := EncodePairs(pairs.GetOr(map[]));
    assert AllParse(fields) by {
      forall f | f in fields ensures Parse(fields[f]).Some? {
        if f !in enc {
          assert fields[f] == ToArg(u);
        }
      }
    }
    var d := Decode(fields);
    var expected := map[UserIdField := Owner(u, pairs)] + (pairs.GetOr(map[]) - {Js.ProtoKey});
    assert d.Keys == expected.Keys;
    forall f | f in d ensures d[f] == expected[f] {
      if f in enc {
        assert Parse(fields[f]) == Some(pairs.GetOr(map[])[f]);
      } else {
        assert fields[f] == ToArg(u);
      }
    }
  }

  /** What `getSession` makes of a hash whose fields all parse. */
  lemma GetSessionOfFields(db: Db, k: string, now: int, fields: map<string, string>)
    requires HGetAll(Purge(db, now), k) == fields && fields != map[] && AllParse(fields)
    ensures GetSession(db, k, now)
            == Success(Some(SessionData(k, Lookup(Decode(fields), UserIdField), Decode(fields) - {UserIdField})))
  {
  }

  /** A fresh session reads back, at the same instant, exactly the fields
      `addSession` wrote. */
  lemma EmptyUnion(a: map<string, string>, b: map<string, string>)
    requires a == map[]
    ensures a + b == b
  {
  }

  lemma AddSessionFields(db: Db, k: string, u: Value, pairs: Option<map<string, Value>>, now: int)
    requires k !in Purge(db, now).hashes && k !in Purge(db, now).expiry
    ensures HGetAll(Purge(AddSession(db, k, u, pairs, now, {}).db, now), k) == SessionFields(u, pairs)
  {
    var db1 := AddSession(db, k, u, pairs, now, {}).db;
    var f := SessionFields(u, pairs);
    EmptyUnion(HGetAll(Purge(db, now), k), f);
    assert k in db1.hashes && db1.hashes[k] == f && k !in db1.expiry;
    PurgeAfterWrite(db1, k, now);
  }

  /** The decoded fields of a fresh session split into the owner and the
      pairs, `__proto__` aside. */
  lemma SplitOwner(o: Value, pairs: map<string, Value>)
    requires UserIdField in pairs ==> pairs[UserIdField] == o
    ensures var d := map[UserIdField := o] + (pairs - {Js.ProtoKey});
            && Lookup(d, UserIdField) == Some(o)
            && d - {UserIdField} == pairs - {UserIdField, Js.ProtoKey}
  {
    var p := pairs - {Js.ProtoKey};
    assert (map[UserIdField := o] + p) - {UserIdField} == p - {UserIdField};
  }

  /** A fresh session written with an owner that is neither a string nor
      `null` is read back whole: the owner, and the pairs without `user_id`.
      A `__proto__` pair is written as a field but never read back as a
      pair. */
  lemma AddThenGet(db: Db, k: string, u: Value, pairs: Option<map<string, Value>>, now: int)
    requires k !in Purge(db, now).hashes && k !in Purge(db, now).expiry
    requires !u.Str? && !u.Null?
    ensures var db1 := AddSession(db, k, u, pairs, now, {}).db;
            GetSession(db1, k, now)
            == Success(Some(SessionData(k, Some(Owner(u, pairs)), pairs.GetOr(map[]) - {UserIdField, Js.ProtoKey})))
  {
    var db1 := AddSession(db, k, u, pairs, now, {}).db;
    var fields := SessionFields(u, pairs);
    AddSessionFields(db, k, u, pairs, now);
    DecodeSessionFields(u, pairs);
    assert UserIdField in fields;
    GetSessionOfFields(db1, k, now, fields);
    SplitOwner(Owner(u, pairs), pairs.GetOr(map[]));
  }

  /** A string owner id is written raw and a `null` one as the empty text;
      neither is read back as itself: `JSON.parse` throws on the empty text,
      and on a string's text it throws or yields another value. */
  lemma OwnerNotReadBack(db: Db, k: string, u: Value, now: int)
    requires k !in Purge(db, now).hashes && k !in Purge(db, now).expiry
    requires u.Str? || u.Null?
    ensures var r := GetSession(AddSession(db, k, u, None, now, {}).db, k, now);
            !(r.Success? && r.value.Some? && r.value.value.userId == Some(u))
    ensures u.Null? ==> GetSession(AddSession(db, k, u, None, now, {}).db, k, now) == Failure(MalformedField)
  {
    AddSessionFields(db, k, u, None, now);
    assert SessionFields(u, None)[UserIdField] == ToArg(u);
    ArgRoundTripIff(u);
    if u.Null? {
      assert Parse("") == None;
      assert !AllParse(SessionFields(u, None));
    }
  }

  /** `addSession` is not atomic: when the `HSET` fails and the `ZADD` does
      not, the owner's index lists a session that has no fields. */
  lemma PipelineNotAtomic(db: Db, k: string, u: Value, pairs: Option<map<string, Value>>, now: int)
    requires k !in db.hashes
    ensures var r := AddSession(db, k, u, pairs, now, {0});
            && r.status == Failure(CommandFailed(0))
            && k in ZRange(r.db, ToArg(u))
            && GetSession(r.db, k, now) == Success(None)
  {
    var r := AddSession(db, k, u, pairs, now, {0});
    assert FirstFailure(1, {0}) == Some(0);
    assert HGetAll(r.db, k) == map[];
  }

  /** A value written with `setPair` comes back from `getSession` exactly when
      it is neither a string nor `null` and the name is not `__proto__`:
      strings are written without JSON quoting, `null` as the empty text, and
      a `__proto__` field creates no pair when read. */
  lemma SetPairRoundTripIff(db: Db, k: string, key: string, v: Value, now: int)
    requires key != UserIdField
    requires AllParse(HGetAll(Purge(db, now), k))
    ensures var r := GetSession(SetPair(db, k, key, v, now), k, now);
            (r.Success? && r.value.Some? && key in r.value.value.pairs && r.value.value.pairs[key] == v)
            <==> !v.Str? && !v.Null? && key != Js.ProtoKey
  {
    var db1 := SetPair(db, k, key, v, now);
    PurgeAfterWrite(db1, k, now);
    var fields := HGetAll(Purge(db, now), k)[key := ToArg(v)];
    assert HGetAll(Purge(db1, now), k) == fields;
    assert key in fields && fields[key] == ToArg(v);
    ArgRoundTripIff(v);
    if !AllParse(fields) {
      if !v.Str? && !v.Null? {
        WriteKeepsParse(HGetAll(Purge(db, now), k), key, v);
      }
    } else {
      GetSessionOfFields(db1, k, now, fields);
      var d := Decode(fields);
      if key != Js.ProtoKey {
        assert key in d && Parse(fields[key]) == Some(d[key]);
        assert (d - {UserIdField})[key] == d[key];
      }
    }
  }

  /** Writing a field whose text parses keeps every field parseable. */
  lemma WriteKeepsParse(fields: map<string, string>, key: string, v: Value)
    requires AllParse(fields) && !v.Str? && !v.Null?
    ensures AllParse(fields[key := ToArg(v)])
  {
    ArgRoundTripIff(v);
    var f1 := fields[key := ToArg(v)];
    forall f | f in f1 ensures Parse(f1[f]).Some? {
      if f != key {
        assert f1[f] == fields[f];
      }
    }
  }

  /** `setPair` on a session that is gone recreates it: a hash with the one
      field, no owner and no deadline; a `__proto__` field reads as a session
      with no pairs. */
  lemma SetPairResurrects(db: Db, k: string, key: string, v: Value, now: int)
    requires k !in Purge(db, now).hashes && k !in Purge(db, now).expiry
    requires key != UserIdField && !v.Str? && !v.Null?
    ensures GetSession(SetPair(db, k, key, v, now), k, now)
            == Success(Some(SessionData(k, None, map[key := v] - {Js.ProtoKey})))
    ensures GetExpirationTime(SetPair(db, k, key, v, now), k, now) == -1
  {
    var db1 := SetPair(db, k, key, v, now);
    assert db1.hashes[k] == map[key := ToArg(v)];
    assert k !in db1.expiry;
    PurgeAfterWrite(db1, k, now);
    var fields := map[key := ToArg(v)];
    assert key in fields;
    DecodeOne(key, v);
    GetSessionOfFields(db1, k, now, fields);
    var d := Decode(fields);
    assert UserIdField !in d;
    assert d - {UserIdField} == d;
  }

  /** A single field holding a value that survives the client reads as that
      pair, unless its name is `__proto__`. */
  lemma DecodeOne(key: string, v: Value)
    requires !v.Str? && !v.Null?
    ensures AllParse(map[key := ToArg(v)])
    ensures Decode(map[key := ToArg(v)]) == map[key := v] - {Js.ProtoKey}
  {
    var fields := map[key := ToArg(v)];
    ArgRoundTripIff(v);
    assert AllParse(fields) by {
      assert forall f :: f in fields ==> f == key;
    }
    var d := Decode(fields);
    if key == Js.ProtoKey {
      assert d.Keys == {};
    } else {
      assert d.Keys == {key} && d[key] == v;
    }
  }

  /** An expiration time of 0 is not "no expiry": `EXPIRE k 0` deletes the
      session at once. */
  lemma ZeroTtlDestroys(db: Db, k: string, u: Option<Value>, now: int)
    ensures GetSession(SetExpirationTime(db, k, u, 0, now, {}).db, k, now) == Success(None)
  {
    ExpirationPipeline(db, k, u, 0, now);
    assert k !in Expire(Purge(db, now), k, 0, now).hashes;
  }

  /** The four steps of `setExpirationTime(k, u, t)` with `t > 0` on a live
      session, one at a time. */
  lemma ExpirationSteps(d0: Db, k: string, owner: string, t: int, now: int)
    requires t > 0 && k in d0.hashes
    ensures var d1 := Expire(d0, k, t, now);
            var d2 := Expire(d1, owner, t, now);
            var d3 := ZAdd(d2, owner, now, k);
            var d4 := ZRemRangeByScore(d3, owner, now - t * 1000);
            && d4.hashes == d0.hashes && k in d4.expiry && d4.expiry[k] == now + t * 1000
            && k in ZRange(d4, owner)
            && (forall m :: m in ZRange(d4, owner) ==> d4.zsets[owner][m] > now - t * 1000)
            && (forall m :: m in ZRange(d0, owner) && m != k && d0.zsets[owner][m] > now - t * 1000
                  ==> m in ZRange(d4, owner) && d4.zsets[owner][m] == d0.zsets[owner][m])
            && (Exists(d0, owner) ==> owner in d4.expiry && d4.expiry[owner] == now + t * 1000)
  {
    var d1 := Expire(d0, k, t, now);
    assert d1.expiry[k] == now + t * 1000;
    var d2 := Expire(d1, owner, t, now);
    assert d2.expiry[k] == now + t * 1000;
    var d3 := ZAdd(d2, owner, now, k);
    var d4 := ZRemRangeByScore(d3, owner, now - t * 1000);
    assert k in ZRange(d4, owner);
  }

  /** With no failures, `setExpirationTime`'s pipeline is its four commands
      applied in order. */
  lemma ExpirationPipeline(db: Db, k: string, u: Option<Value>, t: int, now: int)
    requires t >= 0
    ensures SetExpirationTime(db, k, u, t, now, {}).db
            == ZRemRangeByScore(ZAdd(Expire(Expire(Purge(db, now), k, t, now), Arg(u), t, now), Arg(u), now, k), Arg(u), now - t * 1000)
  {
    var cmds := ExpirationCommands(k, Arg(u), t, now);
    RunPipelineFour(Purge(db, now), cmds[0], cmds[1], cmds[2], cmds[3], now, {});
  }

  /** Setting a positive expiration time on a live session leaves what
      `getSession` reads at the same instant unchanged. */
  lemma ExpirationKeepsRead(db: Db, k: string, u: Option<Value>, t: int, now: int)
    requires t > 0 && k in Purge(db, now).hashes
    ensures GetSession(SetExpirationTime(db, k, u, t, now, {}).db, k, now) == GetSession(db, k, now)
  {
    ExpirationPipeline(db, k, u, t, now);
    ExpirationSteps(Purge(db, now), k, Arg(u), t, now);
    var db1 := SetExpirationTime(db, k, u, t, now, {}).db;
    assert HGetAll(Purge(db1, now), k) == HGetAll(Purge(db, now), k);
  }

  /** After `setExpirationTime(k, u, t)` with `t > 0` on a live session, `TTL`
      reports `t` for the session and for the owner's index. */
  lemma SetExpirationTtl(db: Db, k: string, u: Option<Value>, t: int, now: int)
    requires t > 0 && k in Purge(db, now).hashes
    ensures var db1 := SetExpirationTime(db, k, u, t, now, {}).db;
            && GetExpirationTime(db1, k, now) == t
            && (Exists(Purge(db, now), Arg(u)) ==> GetExpirationTime(db1, Arg(u), now) == t)
  {
    ExpirationPipeline(db, k, u, t, now);
    ExpirationSteps(Purge(db, now), k, Arg(u), t, now);
    var db1 := SetExpirationTime(db, k, u, t, now, {}).db;
    assert Purge(db1, now).expiry[k] == now + t * 1000;
    assert (now + t * 1000 - now + 500) / 1000 == t;
    if Exists(Purge(db, now), Arg(u)) {
      assert Purge(db1, now).expiry[Arg(u)] == now + t * 1000;
    }
  }

  /** After `setExpirationTime(k, u, t)` with `t > 0` on a live session, the
      owner's index lists `k`, drops exactly the other sessions last touched
      at or before `now - t * 1000`, and keeps the scores of the rest. */
  lemma SetExpirationIndex(db: Db, k: string, u: Option<Value>, t: int, now: int)
    requires t > 0 && k in Purge(db, now).hashes
    ensures var db1 := SetExpirationTime(db, k, u, t, now, {}).db;
            && k in ZRange(db1, Arg(u))
            && (forall m :: m in ZRange(db1, Arg(u)) ==> db1.zsets[Arg(u)][m] > now - t * 1000)
            && (forall m :: m in ZRange(Purge(db, now), Arg(u)) && m != k && Purge(db, now).zsets[Arg(u)][m] > now - t * 1000
                  ==> m in ZRange(db1, Arg(u)) && db1.zsets[Arg(u)][m] == Purge(db, now).zsets[Arg(u)][m])
  {
    ExpirationPipeline(db, k, u, t, now);
    ExpirationSteps(Purge(db, now), k, Arg(u), t, now);
  }

  /** `deleteSession` removes every session of the owner named in `user_id`,
      and the owner's index, leaving the other live sessions alone. */
  lemma DeleteSessionRemovesOwnerSessions(db: Db, k: string, now: int, m: string)
    requires HGet(Purge(db, now), k, UserIdField).Some?
    requires var o := HGet(Purge(db, now), k, UserIdField).value;
             o != "" && m in ZRange(Purge(db, now), o)
    ensures var r := DeleteSession(db, k, now);
            GetSession(r, m, now) == Success(None) && !Exists(r, HGet(Purge(db, now), k, UserIdField).value)
  {
  }

  /** A session missing from its owner's index survives `deleteSession`:
      the fields are read through the index, not through the key itself. */
  lemma DeleteSessionSparesUnindexed(db: Db, k: string, now: int)
    requires HGet(Purge(db, now), k, UserIdField).Some?
    requires var o := HGet(Purge(db, now), k, UserIdField).value;
             o != k && k !in ZRange(Purge(db, now), o)
    ensures HGetAll(Purge(DeleteSession(db, k, now), now), k) == HGetAll(Purge(db, now), k)
  {
    var o := HGet(Purge(db, now), k, UserIdField).value;
    var r := DeleteSession(db, k, now);
    var live := Purge(db, now);
    assert ToArg(Str(o)) == o;
    if o != "" && ZRange(live, o) != {} {
      assert r == DeleteSessionsByUserId(db, Str(o), now);
      assert r == Del(live, ZRange(live, o) + {o});
    }
  }
}

=== FILE: session.dfy ===
/** `Session`: the per-request object behind `req.session`. It holds the storage
    key (`sessionId`), the owner and the pairs, queues `Set-Cookie` lines on
    the response, and forwards every change to the configured store. */
module Sessions {
  import opened Wrappers
  import opened Json
  import opened StoreTypes
  import opened Crypto
  import Js
  import Store
  import MemoryStore
  import Redis
  import RedisStore

  /** The name of the cookie carrying the signed plaintext id. */
  const CookieName := "session"

  /** One `res.cookie(name, value, {maxAge, httpOnly})` call. */
  datatype SetCookie = SetCookie(name: string, value: string, maxAge: int, httpOnly: bool)

  /** The part of the response the session layer writes: queued `Set-Cookie`
      lines, in order. */
  datatype Response = Response(cookies: seq<SetCookie>)

  /** The middleware's configuration; `plain` ids come from the caller of
      `Init`, standing for `sessionGenerator()`. */
  datatype Config = Config(secret: string, httpOnly: bool, expirationTime: int, crypto: Primitives)

  /** `sessionId` is `None` for `null`; `userId` is `None` for `undefined`;
      `pairs` is `None` for `null`. */
  datatype Session = Session(sessionId: Option<string>, userId: Option<Value>, pairs: Option<map<string, Value>>)

  /** A session operation's result: the session object, the response, the
      store, and whether the returned promise rejects. */
  datatype Outcome = Outcome(session: Session, res: Response, backend: Store.Backend, status: Result<(), StoreError>)

  /** `new Session(res, config)`: all three fields `null`. */
  function Empty(): (s: Session)
    ensures !Exists(s) && s.pairs.None?
  {
    Session(None, Some(Null), None)
  }

  /** `new Session(res, config, sessionData)`. */
  function FromData(d: SessionData): (s: Session)
    ensures Exists(s) && s.sessionId == Some(d.sessionId)
    ensures s.userId == d.userId && s.pairs == Some(d.pairs)
  {
    Session(Some(d.sessionId), d.userId, Some(d.pairs))
  }

  /** `exists()`: `sessionId != null`. */
  predicate Exists(s: Session) {
    s.sessionId.Some?
  }

  /** The store key a `null` session id turns into: the in-memory store never
      holds `null`, and the Redis client sends `null` as the empty text. */
  function StoreKey(b: Store.Backend, id: Option<string>): (r: Option<string>)
    ensures id.Some? ==> r == id
    ensures id.None? ==> (r.None? <==> b.Memory?)
    ensures id.None? && b.RedisBacked? ==> r == Some(RedisStore.ToArg(Null))
  {
    match id
    case Some(k) => Some(k)
    case None => if b.Memory? then None else Some("")
  }

  /** `init(userId, pairs)`: nothing when the session already has a (truthy)
      id; otherwise the new key is `hash(plain + secret)`, the cookie carries
      `sign(plain)`, and the store gets `addSession` then `setExpirationTime`. */
  function Init(cfg: Config, s: Session, res: Response, b: Store.Backend, plain: string,
                u: Value, pairs: Option<map<string, Value>>, now: int): (r: Outcome)
    ensures s.sessionId.Some? && s.sessionId.value != "" ==> r == Outcome(s, res, b, Success(()))
    ensures !(s.sessionId.Some? && s.sessionId.value != "") ==>
              && r.session.sessionId == Some(StorageKey(cfg.crypto, plain, cfg.secret))
              && r.session.userId == Some(u)
              && r.session.pairs == Some(pairs.GetOr(map[]))
              && r.res.cookies
                 == res.cookies + [SetCookie(CookieName, Sign(cfg.crypto, plain, cfg.secret), cfg.expirationTime, cfg.httpOnly)]
  {
    if s.sessionId.Some? && s.sessionId.value != "" then Outcome(s, res, b, Success(()))
    else
      var key := StorageKey(cfg.crypto, plain, cfg.secret);
      var s1 := Session(Some(key), Some(u), Some(pairs.GetOr(map[])));
      var res1 := Response(res.cookies + [SetCookie(CookieName, Sign(cfg.crypto, plain, cfg.secret), cfg.expirationTime, cfg.httpOnly)]);
      var added := Store.AddSession(b, key, u, pairs, now);
      if added.result.Failure? then Outcome(s1, res1, added.backend, added.result)
      else
        var timed := Store.SetExpirationTime(added.backend, key, Some(u), cfg.expirationTime, now);
        Outcome(s1, res1, timed.backend, timed.result)
  }

  /** `delete()`: every queued `Set-Cookie` line is dropped and the store's
      `deleteSession` runs; the session object itself is left as it was. */
  function Delete(s: Session, res: Response, b: Store.Backend, now: int): (r: Outcome)
    ensures r.session == s && r.res.cookies == [] && r.status.Success?
    ensures StoreKey(b, s.sessionId).None? ==> r.backend == b
    ensures StoreKey(b, s.sessionId).Some? ==> r.backend == Store.DeleteSession(b, StoreKey(b, s.sessionId).value, now)
  {
    match StoreKey(b, s.sessionId)
    case None => Outcome(s, Response([]), b, Success(()))
    case Some(k) => Outcome(s, Response([]), Store.DeleteSession(b, k, now), Success(()))
  }

  /** `setPair(key, v)`: forwarded to the store under the session's id. */
  function SetPair(s: Session, b: Store.Backend, key: string, v: Value, now: int): (r: Store.Effect<()>)
    ensures StoreKey(b, s.sessionId).None? ==> r == Store.Effect(b, Failure(MissingSession))
    ensures StoreKey(b, s.sessionId).Some? ==> r == Store.SetPair(b, StoreKey(b, s.sessionId).value, key, v, now)
  {
    match StoreKey(b, s.sessionId)
    case None => Store.Effect(b, Failure(MissingSession))
    case Some(k) => Store.SetPair(b, k, key, v, now)
  }

  /** `deletePair(key)`: forwarded to the store under the session's id. */
  function DeletePair(s: Session, b: Store.Backend, key: string, now: int): (r: Store.Effect<()>)
    ensures StoreKey(b, s.sessionId).None? ==> r == Store.Effect(b, Failure(MissingSession))
    ensures StoreKey(b, s.sessionId).Some? ==> r == Store.DeletePair(b, StoreKey(b, s.sessionId).value, key, now)
  {
    match StoreKey(b, s.sessionId)
    case None => Store.Effect(b, Failure(MissingSession))
    case Some(k) => Store.DeletePair(b, k, key, now)
  }

  // ---------------------------------------------------------------- properties

  /** `init` runs once: a second call, with any arguments, changes nothing,
      provided the storage key is not the empty (falsy) text. */
  lemma InitOnce(cfg: Config, s: Session, res: Response, b: Store.Backend, plain: string, u: Value,
                 pairs: Option<map<string, Value>>, now: int,
                 plain2: string, u2: Value, pairs2: Option<map<string, Value>>, later: int)
    requires StorageKey(cfg.crypto, plain, cfg.secret) != ""
    ensures var r1 := Init(cfg, s, res, b, plain, u, pairs, now);
            var r2 := Init(cfg, r1.session, r1.res, r1.backend, plain2, u2, pairs2, later);
            r2 == Outcome(r1.session, r1.res, r1.backend, Success(()))
  {
  }

  /** The cookie `init` queues verifies, under the configured secret, to the
      plaintext id, and that id hashes to the storage key `init` used. */
  lemma InitCookieNamesKey(cfg: Config, s: Session, res: Response, b: Store.Backend, plain: string,
                           u: Value, pairs: Option<map<string, Value>>, now: int)
    requires Valid(cfg.crypto)
    requires !(s.sessionId.Some? && s.sessionId.value != "")
    ensures var r := Init(cfg, s, res, b, plain, u, pairs, now);
            var c := r.res.cookies[|r.res.cookies| - 1];
            && c.name == CookieName
            && Unsign(cfg.crypto, c.value, cfg.secret) == Some(plain)
            && r.session.sessionId == Some(StorageKey(cfg.crypto, plain, cfg.secret))
  {
    UnsignSign(cfg.crypto, plain, cfg.secret);
  }

  /** With the in-memory store and a fresh key, `init` stores the owner and
      the pairs under the new key, and they are read back while the deadline
      `now + expirationTime * 1000` has not passed; a `__proto__` pair is
      never stored, and an `expirationTime` pair is overwritten by the
      deadline and stripped on the read. */
  lemma InitThenRead(cfg: Config, s: Session, res: Response, mem: Store.Backend, plain: string,
                     u: Value, pairs: Option<map<string, Value>>, now: int, later: int)
    requires mem.Memory? && !(s.sessionId.Some? && s.sessionId.value != "")
    requires now + cfg.expirationTime * 1000 != 0 && later <= now + cfg.expirationTime * 1000
    ensures var r := Init(cfg, s, res, mem, plain, u, pairs, now);
            var key := StorageKey(cfg.crypto, plain, cfg.secret);
            && r.status.Success?
            && Store.GetSession(r.backend, key, later).result.Success?
            && Store.GetSession(r.backend, key, later).result.value
               == Some(SessionData(key, Some(MemoryStore.Owner(u, pairs)), pairs.GetOr(map[]) - {"userId", Js.ProtoKey, "expirationTime"}))
  {
    var key := StorageKey(cfg.crypto, plain, cfg.secret);
    MemoryStore.AddTimedThenGet(mem.mem, key, u, pairs, cfg.expirationTime, now, later);
  }

  /** `init` ends with `setExpirationTime(key, userId, expirationTime)`: with
      the in-memory store the new session's deadline is
      `now + expirationTime * 1000`, whatever the pairs held. */
  lemma InitSetsDeadline(cfg: Config, s: Session, res: Response, mem: Store.Backend, plain: string,
                         u: Value, pairs: Option<map<string, Value>>, now: int)
    requires mem.Memory? && !(s.sessionId.Some? && s.sessionId.value != "")
    ensures var r := Init(cfg, s, res, mem, plain, u, pairs, now);
            && r.status.Success?
            && Store.GetExpirationTime(r.backend, StorageKey(cfg.crypto, plain, cfg.secret), now)
               == Success(Store.Deadline(Some(Num(now + cfg.expirationTime * 1000))))
  {
  }

  /** With Redis and a positive expiration time, the same call leaves the new
      session with `TTL` equal to that time in seconds. */
  lemma InitSetsTtl(cfg: Config, s: Session, res: Response, b: Store.Backend, plain: string,
                    u: Value, pairs: Option<map<string, Value>>, now: int)
    requires b.RedisBacked? && !(s.sessionId.Some? && s.sessionId.value != "")
    requires cfg.expirationTime > 0
    ensures var r := Init(cfg, s, res, b, plain, u, pairs, now);
            && r.status.Success?
            && Store.GetExpirationTime(r.backend, StorageKey(cfg.crypto, plain, cfg.secret), now)
               == Success(Store.Remaining(cfg.expirationTime))
  {
    var key := StorageKey(cfg.crypto, plain, cfg.secret);
    var db1 := RedisStore.AddSession(b.db, key, u, pairs, now, {}).db;
    assert key in db1.hashes;
    RedisStore.PurgeAfterWrite(db1, key, now);
    RedisStore.SetExpirationTtl(db1, key, Some(u), cfg.expirationTime, now);
  }

  /** The default expiration time -1 ends an in-memory session as soon as it
      is created: its deadline `now - 1000` has passed on every later read. */
  lemma DefaultExpirationEndsMemorySession(cfg: Config, s: Session, res: Response, mem: Store.Backend, plain: string,
                                           u: Value, pairs: Option<map<string, Value>>, now: int, later: int)
    requires mem.Memory? && !(s.sessionId.Some? && s.sessionId.value != "")
    requires cfg.expirationTime == -1 && now != 1000 && later >= now
    ensures var r := Init(cfg, s, res, mem, plain, u, pairs, now);
            Store.GetSession(r.backend, StorageKey(cfg.crypto, plain, cfg.secret), later).result == Success(None)
  {
    var key := StorageKey(cfg.crypto, plain, cfg.secret);
    var m1 := MemoryStore.AddSession(mem.mem, key, u, pairs);
    MemoryStore.ExpiryWindow(m1, key, -1, now, later);
  }

  /** `delete()` does not end the session object: `exists()` stays true for
      the rest of the request. */
  lemma DeleteKeepsExists(s: Session, res: Response, b: Store.Backend, now: int)
    requires Exists(s)
    ensures Exists(Delete(s, res, b, now).session)
  {
  }

  /** With the in-memory store, `delete()` ends the stored session: a later
      read of its key finds nothing. */
  lemma DeleteEndsMemorySession(s: Session, res: Response, b: Store.Backend, now: int, later: int)
    requires b.Memory? && Exists(s)
    ensures Store.GetSession(Delete(s, res, b, now).backend, s.sessionId.value, later).result == Success(None)
  {
    var k := s.sessionId.value;
    assert Delete(s, res, b, now).backend == Store.DeleteSession(b, k, now);
  }

  /** With Redis, `delete()` ends the session when its hash names an owner
      whose index lists it: every session of that owner goes, and so does the
      index. */
  lemma DeleteEndsRedisSession(s: Session, res: Response, b: Store.Backend, now: int)
    requires b.RedisBacked? && Exists(s)
    requires Redis.HGet(Redis.Purge(b.db, now), s.sessionId.value, RedisStore.UserIdField).Some?
    requires var o := Redis.HGet(Redis.Purge(b.db, now), s.sessionId.value, RedisStore.UserIdField).value;
             o != "" && s.sessionId.value in Redis.ZRange(Redis.Purge(b.db, now), o)
    ensures Store.GetSession(Delete(s, res, b, now).backend, s.sessionId.value, now).result == Success(None)
  {
    var k := s.sessionId.value;
    RedisStore.DeleteSessionRemovesOwnerSessions(b.db, k, now, k);
  }

  /** With Redis and a fresh key, `init` with a positive expiration time
      stores the owner and the pairs, and they are read back at once. The
      owner must be neither a string nor `null`, which do not survive the
      trip through the client and `JSON.parse`; a `__proto__` pair is stored
      but not read back. */
  lemma InitThenReadRedis(cfg: Config, s: Session, res: Response, b: Store.Backend, plain: string,
                          u: Value, pairs: Option<map<string, Value>>, now: int)
    requires b.RedisBacked? && !(s.sessionId.Some? && s.sessionId.value != "")
    requires var key := StorageKey(cfg.crypto, plain, cfg.secret);
             key !in Redis.Purge(b.db, now).hashes && key !in Redis.Purge(b.db, now).expiry
    requires !u.Str? && !u.Null? && cfg.expirationTime > 0
    ensures var r := Init(cfg, s, res, b, plain, u, pairs, now);
            var key := StorageKey(cfg.crypto, plain, cfg.secret);
            && r.status.Success?
            && Store.GetSession(r.backend, key, now).result
               == Success(Some(SessionData(key, Some(RedisStore.Owner(u, pairs)), pairs.GetOr(map[]) - {"user_id", Js.ProtoKey})))
  {
    var key := StorageKey(cfg.crypto, plain, cfg.secret);
    var db1 := RedisStore.AddSession(b.db, key, u, pairs, now, {}).db;
    RedisStore.AddThenGet(b.db, key, u, pairs, now);
    RedisStore.AddSessionFields(b.db, key, u, pairs, now);
    assert "user_id" in Redis.HGetAll(Redis.Purge(db1, now), key);
    RedisStore.ExpirationKeepsRead(db1, key, Some(u), cfg.expirationTime, now);
  }
}

=== FILE: store.dfy ===
/** The store a configuration names, seen through the six calls `Session` and
    the middleware make on it. Both backends answer the same calls with
    different meanings, which the lemmas at the end make precise. The Redis
    pipelines are taken to succeed here; their failures are modelled in
    `RedisStore`. */
module Store {
  import opened Wrappers
  import opened Json
  import opened StoreTypes
  import MemoryStore
  import Redis
  import RedisStore

  datatype Backend = Memory(mem: MemoryStore.Store) | RedisBacked(db: Redis.Db)

  /** The backend after a call, and what the call returned or threw. */
  datatype Effect<T> = Effect(backend: Backend, result: Result<T, StoreError>)

  /** What `getExpirationTime` reports: the in-memory store the absolute
      deadline in milliseconds, Redis the remaining seconds. */
  datatype Expiry = Deadline(at: Option<Value>) | Remaining(seconds: int)

  function AddSession(b: Backend, k: string, u: Value, pairs: Option<map<string, Value>>, now: int): (r: Effect<()>)
    ensures r.backend.Memory? == b.Memory?
    ensures r.result.Success?
  {
    match b
    case Memory(mem) => Effect(Memory(MemoryStore.AddSession(mem, k, u, pairs)), Success(()))
    case RedisBacked(db) =>
      var o := RedisStore.AddSession(db, k, u, pairs, now, {});
      Effect(RedisBacked(o.db), o.status)
  }

  function GetSession(b: Backend, k: string, now: int): (r: Effect<Option<SessionData>>)
    ensures r.backend.Memory? == b.Memory?
    ensures r.result.Success? && r.result.value.Some? ==> r.result.value.value.sessionId == k
    ensures b.Memory? ==> r.result.Success?
    ensures r.result.Success? && r.result.value.None? ==> r.backend == b
  {
    match b
    case Memory(mem) =>
      var f := MemoryStore.GetSession(mem, k, now);
      Effect(Memory(f.store), Success(f.data))
    case RedisBacked(db) => Effect(b, RedisStore.GetSession(db, k, now))
  }

  function SetExpirationTime(b: Backend, k: string, u: Option<Value>, t: int, now: int): (r: Effect<()>)
    ensures r.backend.Memory? == b.Memory?
    ensures b.Memory? ==> (r.result.Success? <==> k in b.mem.sessions)
    ensures b.RedisBacked? ==> r.result.Success?
    ensures r.result.Failure? ==> r.backend == b
  {
    match b
    case Memory(mem) =>
      (match MemoryStore.SetExpirationTime(mem, k, t, now)
       case Success(mem1) => Effect(Memory(mem1), Success(()))
       case Failure(e) => Effect(b, Failure(e)))
    case RedisBacked(db) =>
      var o := RedisStore.SetExpirationTime(db, k, u, t, now, {});
      Effect(RedisBacked(o.db), o.status)
  }

  /** With the in-memory store, `setExpirationTime` on a stored key succeeds,
      keeps the keys, and writes the deadline into that record, where
      `getExpirationTime` reads it. */
  lemma MemoryRenewal(b: Backend, k: string, u: Option<Value>, t: int, now: int)
    ensures b.Memory? && k in b.mem.sessions ==>
              var e := SetExpirationTime(b, k, u, t, now);
              && e.result.Success? && e.backend.Memory?
              && e.backend.mem.sessions.Keys == b.mem.sessions.Keys
              && MemoryStore.ExpirationField in e.backend.mem.sessions[k]
              && e.backend.mem.sessions[k][MemoryStore.ExpirationField] == Num(now + t * 1000)
              && GetExpirationTime(e.backend, k, now) == Success(Deadline(Some(Num(now + t * 1000))))
  {
  }

  function GetExpirationTime(b: Backend, k: string, now: int): (r: Result<Expiry, StoreError>)
    ensures b.Memory? ==> (r.Success? <==> k in b.mem.sessions) && (r.Success? ==> r.value.Deadline?)
    ensures b.RedisBacked? ==> r.Success? && r.value.Remaining?
  {
    match b
    case Memory(mem) =>
      var at :- MemoryStore.GetExpirationTime(mem, k);
      Success(Deadline(at))
    case RedisBacked(db) => Success(Remaining(RedisStore.GetExpirationTime(db, k, now)))
  }

  function DeleteSession(b: Backend, k: string, now: int): (r: Backend)
    ensures r.Memory? == b.Memory?
    ensures b.Memory? ==> k !in r.mem.sessions
  {
    match b
    case Memory(mem) => Memory(MemoryStore.DeleteSession(mem, k))
    case RedisBacked(db) => RedisBacked(RedisStore.DeleteSession(db, k, now))
  }

  function SetPair(b: Backend, k: string, key: string, v: Value, now: int): (r: Effect<()>)
    ensures r.backend.Memory? == b.Memory?
    ensures b.Memory? ==> (r.result.Success? <==> k in b.mem.sessions)
    ensures b.RedisBacked? ==> r.result.Success? && Redis.HGet(r.backend.db, k, key) == Some(RedisStore.ToArg(v))
    ensures r.result.Failure? ==> r.backend == b
  {
    match b
    case Memory(mem) =>
      (match MemoryStore.SetPair(mem, k, key, v)
       case Success(mem1) => Effect(Memory(mem1), Success(()))
       case Failure(e) => Effect(b, Failure(e)))
    case RedisBacked(db) => Effect(RedisBacked(RedisStore.SetPair(db, k, key, v, now)), Success(()))
  }

  function DeletePair(b: Backend, k: string, key: string, now: int): (r: Effect<()>)
    ensures r.backend.Memory? == b.Memory?
    ensures b.Memory? ==> (r.result.Success? <==> k in b.mem.sessions)
    ensures b.RedisBacked? ==> r.result.Success? && Redis.HGet(r.backend.db, k, key) == None
    ensures r.result.Failure? ==> r.backend == b
  {
    match b
    case Memory(mem) =>
      (match MemoryStore.DeletePair(mem, k, key)
       case Success(mem1) => Effect(Memory(mem1), Success(()))
       case Failure(e) => Effect(b, Failure(e)))
    case RedisBacked(db) => Effect(RedisBacked(RedisStore.DeletePair(db, k, key, now)), Success(()))
  }

  // ---------------------------------------------------------------- the backends disagree

  /** `deleteSession(k)` is local in memory and global in Redis: the in-memory
      store keeps another session of the same owner, Redis deletes every
      session indexed under the owner. */
  lemma DeleteSessionScope(mem: MemoryStore.Store, db: Redis.Db, k: string, k2: string, now: int)
    requires k != k2 && k2 in mem.sessions
    requires Redis.HGet(Redis.Purge(db, now), k, RedisStore.UserIdField).Some?
    requires var o := Redis.HGet(Redis.Purge(db, now), k, RedisStore.UserIdField).value;
             o != "" && k2 in Redis.ZRange(Redis.Purge(db, now), o)
    ensures k2 in DeleteSession(Memory(mem), k, now).mem.sessions
    ensures GetSession(DeleteSession(RedisBacked(db), k, now), k2, now).result == Success(None)
  {
    RedisStore.DeleteSessionRemovesOwnerSessions(db, k, now, k2);
  }

  /** After `setExpirationTime(k, u, t)` with `t > 0`, `getExpirationTime(k)`
      reports the deadline `now + t * 1000` in memory and `t` in Redis. */
  lemma ExpirationReadsDiffer(mem: MemoryStore.Store, db: Redis.Db, k: string, u: Option<Value>, t: int, now: int)
    requires t > 0 && k in mem.sessions && k in Redis.Purge(db, now).hashes
    ensures var m := SetExpirationTime(Memory(mem), k, u, t, now).backend;
            GetExpirationTime(m, k, now) == Success(Deadline(Some(Num(now + t * 1000))))
    ensures var r := SetExpirationTime(RedisBacked(db), k, u, t, now).backend;
            GetExpirationTime(r, k, now) == Success(Remaining(t))
  {
    RedisStore.SetExpirationTtl(db, k, u, t, now);
  }

  /** A negative expiration time ends a live in-memory session at once and
      leaves a Redis session untouched. */
  lemma NegativeTtlDiffers(mem: MemoryStore.Store, db: Redis.Db, k: string, u: Option<Value>, t: int, now: int)
    requires t < 0 && now + t * 1000 != 0
    requires k in mem.sessions
    ensures var m := SetExpirationTime(Memory(mem), k, u, t, now).backend;
            GetSession(m, k, now).result == Success(None)
    ensures SetExpirationTime(RedisBacked(db), k, u, t, now).backend == RedisBacked(db)
  {
    MemoryStore.NegativeTtlExpiresAtOnce(mem, k, t, now);
  }
}

=== FILE: store_types.dfy ===
/** What both session stores hand back and how they fail. */
module StoreTypes {
  import opened Wrappers
  import opened Json

  /** `{sessionId, userId, pairs}` as `getSession` returns it; a `None` user
      id is JavaScript's `undefined`. */
  datatype SessionData = SessionData(sessionId: string, userId: Option<Value>, pairs: map<string, Value>)

  /** Why a store operation throws. `MissingSession`: the in-memory store
      dereferenced the record of an absent key (TypeError). `MalformedField`:
      `JSON.parse` rejected a stored field. `CommandFailed(i)`: sub-command `i`
      of a Redis pipeline reported an error. */
  datatype StoreError = MissingSession | MalformedField | CommandFailed(index: nat)

  /** Reading a property of a plain object: `undefined` when absent. */
  function Lookup(m: map<string, Value>, key: string): (r: Option<Value>)
    ensures r.Some? <==> key in m
    ensures r.Some? ==> r.value == m[key]
  {
    if key in m then Some(m[key]) else None
  }
}

=== FILE: wrappers.dfy ===
/** Failure-compatible wrappers shared by every module of the session model:
    `Option` for JavaScript's null/undefined results and `Result` for thrown errors. */
module Wrappers {

  datatype Option<+T> = None | Some(value: T) {

    predicate IsFailure() {
      None?
    }

    function PropagateFailure<U>(): Option<U>
      requires None?
    {
      None
    }

    function Extract(): T
      requires Some?
    {
      value
    }

    function GetOr(default: T): T {
      match this
      case Some(v) => v
      case None => default
    }
  }

  datatype Result<+T, +E> = Success(value: T) | Failure(error: E) {

    predicate IsFailure() {
      Failure?
    }

    function PropagateFailure<U>(): Result<U, E>
      requires Failure?
    {
      Failure(error)
    }

    function Extract(): T
      requires Success?
    {
      value
    }
  }
}
